=== FILE: README.md ===
# MediaFixer string and console-widget logic in Dafny

MediaFixer is a command-line tool that tidies movie folders into a
"Title (Year)" layout. In this source, the movie fixer itself is a stub
(`MovieFixer.FixDirectory` and `FixFile` throw `NotImplementedException`).
The code with real decision logic is in two places:

- the string extension methods in `StringExtensions`: truncation, masking,
  the Luhn check, title casing, affix trimming and similar helpers;
- the selection logic of the two console widgets. `ConsoleSelectList` moves a
  selection up and down and wraps around the ends. `ConsoleMenuList` lays items
  out in a grid and moves a selection that saturates at the ends.

This project models that logic as pure Dafny functions and methods over
`seq<char>` and `seq<ListItem>`, and proves what each promises.
Exceptions the source throws on non-null input are returned as
`Results.Throws(...)` values. The `while (true)` key loops become a transition
function from one key press to the next index, plus a fold over a sequence of
key presses.

Modules:

- `Results`: `Result` and `Option`.
- `Int32`: 32-bit wrap-around.
- `Chars`: ASCII casing, white space and `Trim`.
- `StringExtensions`, `Truncation`, `Luhn`, `Affixes`: the extension methods.
- `Selector`: `Selector.cs`.
- `Menu`: `Menu.cs`.

## Model

| member | source | states |
|---|---|---|
| `Chars.Trim` | MediaFixer.Core/Extensions/StringExtensions.cs:324 | The result is a contiguous piece of the text with only white space around it, and it neither starts nor ends with white space |
| `Chars.TrimEmptyIffAllWhiteSpace` | MediaFixer.Core/Extensions/StringExtensions.cs:324 | Trimming leaves nothing exactly when every character is white space |
| `Chars.TrimIgnoresPadding` | MediaFixer.Core/Extensions/StringExtensions.cs:357 | White space added at either end does not change what `Trim` yields |
| `StringExtensions.IndexOf` | MediaFixer.Core/Extensions/StringExtensions.cs:60 | Returns -1 exactly when the character is absent; otherwise returns the position of its first occurrence |
| `StringExtensions.RemoveQueryString` | MediaFixer.Core/Extensions/StringExtensions.cs:58-62 | The result is a prefix of the value and contains no '?'. It ends only where the value has a '?', and it is the whole value when there is none |
| `StringExtensions.RemoveQueryStringIdempotent` | MediaFixer.Core/Extensions/StringExtensions.cs:58-62 | Removing the query string a second time changes nothing |
| `StringExtensions.Obscured` | MediaFixer.Core/Extensions/StringExtensions.cs:173-196 | Masking keeps the length. Each character is kept where the format reveals it (index 0; indices 0 and len-1; the last four; none) and is '*' everywhere else |
| `StringExtensions.ToBoolean` | MediaFixer.Core/Extensions/StringExtensions.cs:273-277 | A true result needs a text of 1 to 4 characters that begins with a letter or is "1" |
| `StringExtensions.ToBooleanIgnoresCase` | MediaFixer.Core/Extensions/StringExtensions.cs:275-276 | Texts that are equal ignoring case give the same answer |
| `StringExtensions.ToBooleanExamples` | MediaFixer.Core/Extensions/StringExtensions.cs:273-277 | "TRUE", "Yes", "t" and "1" are true; "no", "false", "0" and "" are false |
| `StringExtensions.ToTitleCase` | MediaFixer.Core/Extensions/StringExtensions.cs:295-304 | The empty text throws IndexOutOfRange. Otherwise the result keeps the length, is title cased (word starts not lower case, all else not upper case) and equals the input ignoring case |
| `StringExtensions.TitleCaseUnique` | MediaFixer.Core/Extensions/StringExtensions.cs:295-304 | Any title-cased text that equals the input ignoring case is exactly the `ToTitleCase` result |
| `StringExtensions.TitleCaseIdempotent` | MediaFixer.Core/Extensions/StringExtensions.cs:295-304 | Title casing an already title-cased result returns it unchanged |
| `StringExtensions.TitleCaseDigitExample` | MediaFixer.Core/Extensions/StringExtensions.cs:295-304 | "8 mile" becomes "8 Mile": a leading digit stays and the next word is capitalised |
| `StringExtensions.TitleCaseShoutingExample` | MediaFixer.Core/Extensions/StringExtensions.cs:295-304 | "skate KITCHEN" becomes "Skate Kitchen": upper case inside a word is lowered |
| `StringExtensions.TitleCaseShortWordExample` | MediaFixer.Core/Extensions/StringExtensions.cs:295-304 | "a dangerous idea" becomes "A Dangerous Idea" |
| `StringExtensions.IsNullOrWhiteSpace` | MediaFixer.Core/Extensions/StringExtensions.cs:322-325 | True exactly for null or a text made only of white space |
| `StringExtensions.StripAllButNumbers` | MediaFixer.Core/Extensions/StringExtensions.cs:332-335 | The result holds only ASCII digits, and holds each digit as many times as the text does |
| `StringExtensions.StripDistributes` | MediaFixer.Core/Extensions/StringExtensions.cs:332-335 | Stripping keeps order: stripping a concatenation is the concatenation of the stripped parts |
| `StringExtensions.StripKeepsDigits` | MediaFixer.Core/Extensions/StringExtensions.cs:332-335 | A text of digits only is returned unchanged |
| `StringExtensions.StripIdempotent` | MediaFixer.Core/Extensions/StringExtensions.cs:332-335 | Stripping a second time changes nothing |
| `StringExtensions.Reverse` | MediaFixer.Core/Extensions/StringExtensions.cs:342-347 | Keeps the length; position i holds the character at position len-1-i |
| `StringExtensions.ReverseInvolution` | MediaFixer.Core/Extensions/StringExtensions.cs:342-347 | Reversing twice gives the text back |
| `StringExtensions.DetectIsJson` | MediaFixer.Core/Extensions/StringExtensions.cs:355-360 | A positive answer needs at least two characters left after trimming |
| `StringExtensions.DetectIsJsonIgnoresPadding` | MediaFixer.Core/Extensions/StringExtensions.cs:357-359 | White space around the text does not change the answer |
| `Truncation.TrimEndChar` | MediaFixer.Core/Extensions/StringExtensions.cs:93 | The result is a prefix that does not end with the character, and only that character was removed |
| `Truncation.LastIndexOf` | MediaFixer.Core/Extensions/StringExtensions.cs:131 | Returns -1 or a position holding the character, and no later position holds it |
| `Truncation.Limit` | MediaFixer.Core/Extensions/StringExtensions.cs:89-94 | A negative count throws ArgumentOutOfRange. A fitting value is returned as is. Otherwise the result is the first `count` characters with trailing spaces removed: a prefix of length at most `count` |
| `Truncation.LimitWithEllipses` | MediaFixer.Core/Extensions/StringExtensions.cs:102-111 | Below 5 it is `Limit`. Otherwise a value longer than count-3 becomes its first count-3 characters plus '…', of length count-2, even when the value would have fitted. The result never exceeds `count` |
| `Truncation.LimitWithEllipsesOnBarrier` | MediaFixer.Core/Extensions/StringExtensions.cs:120-137 | Without the barrier it equals the two-argument overload. With it, the cut falls at the last permitted space (past 0 and count-10, before count-3), or at count-3 when there is none, and '…' is appended. The result never exceeds `count` |
| `Truncation.LimitExamples` | MediaFixer.Core/Extensions/StringExtensions.cs:89-137 | Concrete cuts of "the movie title", including the trailing-space trim and the cut at a word |
| `Luhn.DeltasTable` | MediaFixer.Core/Extensions/StringExtensions.cs:244 | For each digit j, j + deltas[j] is the digit sum of 2j |
| `Luhn.ParityTest` | MediaFixer.Core/Extensions/StringExtensions.cs:251 | The truncating `(i - n) % 2 == 0` test holds exactly at odd distance from the right end |
| `Luhn.IsValidCreditCardNumber` | MediaFixer.Core/Extensions/StringExtensions.cs:242-256 | Throws IndexOutOfRange exactly when a doubled position holds a non-digit. Otherwise returns true iff the Luhn sum is divisible by 10. In that sum, digits at odd distance from the right end are doubled and digit-summed, and every other character counts as its code minus 48 |
| `Luhn.SingleDigitErrorDetected` | MediaFixer.Core/Extensions/StringExtensions.cs:242-256 | Two digit strings that differ in exactly one position are never both accepted |
| `Luhn.LuhnExampleSum` | MediaFixer.Core/Extensions/StringExtensions.cs:242-256 | 79927398713 has Luhn sum 70, so it is accepted |
| `Luhn.LuhnExamples` | MediaFixer.Core/Extensions/StringExtensions.cs:242-256 | The empty string has Luhn sum 0, so it is accepted. 79927398710 has Luhn sum 67, so it is rejected |
| `Affixes.LastIndexOfIgnoreCase` | MediaFixer.Core/Extensions/StringExtensions.cs:393 | Returns -1 or a position where the affix occurs ignoring case, and it occurs at no later position |
| `Affixes.TrimEndLoop` | MediaFixer.Core/Extensions/StringExtensions.cs:391-394 | The loop leaves a prefix that does not end with the affix. The part cut off is a run of copies of the affix, each equal to it ignoring case |
| `Affixes.TrimEnd` | MediaFixer.Core/Extensions/StringExtensions.cs:383-396 | An empty text or affix returns the text. Otherwise the text equals the result followed by k copies of the affix (ignoring case), and the result no longer ends with it |
| `Affixes.TrimStartLoop` | MediaFixer.Core/Extensions/StringExtensions.cs:412-415 | The loop leaves a suffix that does not start with the affix. The part cut off is a run of copies of the affix, each equal to it ignoring case |
| `Affixes.TrimStart` | MediaFixer.Core/Extensions/StringExtensions.cs:404-417 | An empty text or affix returns the text. Otherwise the text equals k copies of the affix (ignoring case) followed by the result, and the result no longer starts with it |
| `Affixes.TrimEndIdempotent` | MediaFixer.Core/Extensions/StringExtensions.cs:383-396 | Trimming the end a second time changes nothing |
| `Affixes.TrimStartIdempotent` | MediaFixer.Core/Extensions/StringExtensions.cs:404-417 | Trimming the start a second time changes nothing |
| `Affixes.TrimEndExample` | MediaFixer.Core/Extensions/StringExtensions.cs:383-396 | "movie.mkv.MKV" without ".mkv" is "movie" |
| `Affixes.TrimStartExample` | MediaFixer.Core/Extensions/StringExtensions.cs:404-417 | "the the film" without "THE " is "film" |
| `Affixes.TrimStartCaseExample` | MediaFixer.Core/Extensions/StringExtensions.cs:404-417 | "ABCdef" without "abc" is "def" |
| `Affixes.EnsureStartsWith` | MediaFixer.Core/Extensions/StringExtensions.cs:425-429 | The result starts with the affix, and a text that already does is returned as is. Otherwise the result is the affix followed by the text minus its leading case-insensitive copies of the affix |
| `Affixes.EnsureStartsWithChar` | MediaFixer.Core/Extensions/StringExtensions.cs:437-440 | The result starts with the character. It equals the text iff the text already starts with it; otherwise it is the character put in front |
| `Affixes.EnsureEndsWithChar` | MediaFixer.Core/Extensions/StringExtensions.cs:448-451 | The result ends with the character. It equals the text iff the text already ends with it; otherwise it is the character appended |
| `Affixes.EnsureEndsWith` | MediaFixer.Core/Extensions/StringExtensions.cs:459-462 | The result ends with the affix. It equals the text iff the text already ends with it; otherwise it is the affix appended |
| `Affixes.EnsureIdempotent` | MediaFixer.Core/Extensions/StringExtensions.cs:425-462 | Each of the four ensure functions changes nothing when applied a second time |
| `Affixes.EnsureStartsWithExample` | MediaFixer.Core/Extensions/StringExtensions.cs:425-429 | "ABCdef" made to start with "abc" becomes "abcdef": the copy in another case is replaced |
| `Affixes.EnsureEndsWithExample` | MediaFixer.Core/Extensions/StringExtensions.cs:459-462 | "dir" made to end with "/" becomes "dir/" |
| `Selector.SelectStepAsWritten` | MediaFixer.Core/Terminal/Selector.cs:272-286 | With 32-bit index arithmetic the index stays an Int32, and Enter returns it unchanged. From an index inside the list it agrees with the exact step |
| `Selector.SelectStepAsWrittenKeepsMaxValue` | MediaFixer.Core/Terminal/Selector.cs:283-286 | With Int32.MaxValue and an unrecognised key, the written code keeps the out-of-range index; the exact step yields 0 |
| `Selector.SelectStep` | MediaFixer.Core/Terminal/Selector.cs:272-286 | Enter returns the index unchanged. Any other key leaves an index in 0..Count-1 from any start. From an in-range index the move is ±1 modulo Count |
| `Selector.SelectStepRoundTrip` | MediaFixer.Core/Terminal/Selector.cs:274-286 | Down then Up, Up then Down, Right then Left and Left then Right restore an in-range index |
| `Selector.SelectLoop` | MediaFixer.Core/Terminal/Selector.cs:268-289 | Folds the corrected step `Selector.SelectStep` (exact arithmetic), not the as-written one. Over any key sequence, the final index is in range when the start is in range or the first key is not Enter. Keys that do not move keep an in-range index |
| `Selector.CeilHalf` | MediaFixer.Core/Terminal/Selector.cs:247 | Returns the ceiling of x/2: the least r with 2r >= x |
| `Selector.FindCenter` | MediaFixer.Core/Terminal/Selector.cs:243-248 | Returns ceil(Width/2) - ceil(len/2); the left and right margins around the text differ by at most one column |
| `Selector.BorderCharList` | MediaFixer.Core/Terminal/Selector.cs:502-622 | All 17 characters are ' ' iff the style is None. All 17 are '█' iff the style is BlockLine or an unnamed value. The line styles have four distinct corners |
| `Selector.BlockLineIsDefault` | MediaFixer.Core/Terminal/Selector.cs:504-621 | The BlockLine case and the default case build the same list |
| `Selector.CompareOrdinal` | MediaFixer.Core/Terminal/Selector.cs:386 | The sign is in -1..1 and is zero exactly for equal texts |
| `Selector.CompareTo` | MediaFixer.Core/Terminal/Selector.cs:384-387 | Zero exactly when the two items' texts are equal |
| `Selector.CompareOrdinalAntisymmetric` | MediaFixer.Core/Terminal/Selector.cs:384-387 | Swapping the operands negates the result |
| `Selector.CompareOrdinalLess` | MediaFixer.Core/Terminal/Selector.cs:384-387 | Negative exactly when the first text is a proper prefix of the second, or has the smaller character (Unicode scalar value) at the first difference |
| `Menu.BuildItemMatrix` | MediaFixer.Core/Terminal/Menu.cs:138-163 | An empty list throws. Otherwise item k is selected iff k == SelectedIndex, and texts are kept. The rows read in order are the items; all rows but the last hold GridWidth items, the last 1..GridWidth; there are ceil(Count/GridWidth) rows |
| `Menu.SharedSelectedFlags` | MediaFixer.Core/Terminal/Menu.cs:148-151 | When positions share one item object, an object appears in the result exactly when it is listed. An object's flag is that of its last position: selected iff that position is SelectedIndex |
| `Menu.SharedSelectedFlagsDistinct` | MediaFixer.Core/Terminal/Menu.cs:148-151 | With distinct objects, every position keeps its own flag (selected iff it is SelectedIndex), as `Menu.BuildItemMatrix` states |
| `Menu.SharedSelectedFlagsExample` | MediaFixer.Core/Terminal/Menu.cs:148-151 | One object listed twice ends unselected with SelectedIndex 0 and selected with SelectedIndex 1 |
| `Menu.GridRowCount` | MediaFixer.Core/Terminal/Menu.cs:143-160 | A grid of that shape has ceil(n/GridWidth) rows |
| `Menu.MenuStepAsWritten` | MediaFixer.Core/Terminal/Menu.cs:317-342 | With 32-bit index arithmetic the index stays an Int32, and Enter returns it unchanged. Whenever the exact moved index stays below Int32.MaxValue it agrees with the exact step. A move that lands exactly on Int32.MaxValue does not: the `+ 1` of the check wraps (see `Menu.MenuStepAsWrittenOverflows`) |
| `Menu.MenuStepAsWrittenOverflows` | MediaFixer.Core/Terminal/Menu.cs:321-342 | Three overflows in the written code. Int32.MaxValue with an unrecognised key stays out of range. Down with GridWidth = Int32.MaxValue lands on item 0 where the exact step gives Count-1. Down from the in-range index 1 with GridWidth = Int32.MaxValue - 1 ends at Int32.MaxValue, outside the list, where the exact step gives Count-1 |
| `Menu.MenuStep` | MediaFixer.Core/Terminal/Menu.cs:317-342 | Enter returns the index unchanged. Any other key moves by +1, -1, -GridWidth or +GridWidth and clamps into 0..Count-1 from any start |
| `Menu.MenuStepSaturates` | MediaFixer.Core/Terminal/Menu.cs:327-342 | Up from the first row gives 0 and Down from the last row gives Count-1. Right then Left restores any item but the last |
| `Menu.MenuLoop` | MediaFixer.Core/Terminal/Menu.cs:314-346 | Folds the corrected step `Menu.MenuStep` (exact arithmetic), not the as-written one, which can leave the list from an in-range start. Over any key sequence, the final index is in range when the start is in range or the first key is not Enter |
| `Menu.CellText` | MediaFixer.Core/Terminal/Menu.cs:274-276 | A negative width throws. Otherwise the cell has exactly ItemWidth characters: position i holds the text's character i when there is one, and a space otherwise |

## Left out

- The movie fixer. `MovieFixer.FixDirectory` and `FixFile` only throw `NotImplementedException`, and the configuration interface is empty. The tests call a `Parse` method that this source does not define, so no title/year parsing, candidate selection or renaming is modelled.
- Configuration readers, logging, the banner, the console wrapper, dependency wiring and filesystem helpers. They are I/O or thin wrappers over the runtime.
- The regex- and runtime-backed helpers `StripHtml`, `UrlFriendly`, `MatchesPattern`, `TestPattern`, `Split`, `Format`, `DoFormat`, `ToEnum`, `IsNumeric`, `ToByteArray` and `GenerateStreamFromString`. They delegate to the regex engine, culture-aware parsing or streams.
- All console output. This covers `CreateTable`, `BuildLayout`, the writing half of both `PlaceItems`, `CleanUp`, colours and cursor moves. Only the cell text of the menu's `PlaceItems` is modelled.
- `Console.ReadKey`. The key loops are modelled over a given sequence of keys.
- Culture-sensitive behaviour. `ToLower`/`ToUpper` and `CurrentCultureIgnoreCase` are modelled as ASCII case folding. Under a Turkish or Azerbaijani culture the runtime differs even on ASCII text: "I" lowers to a dotless "ı", and "I"/"i" do not match ignoring case. This affects `ToTitleCase`, `ToBoolean`, `TrimEnd`, `TrimStart`, and the string overload of `EnsureStartsWith`, which calls `TrimStart`. For example, under tr-TR the source gives `EnsureStartsWith("Ix", "i") == "iIx"`, because "I" and "i" do not match ignoring case there; the model gives "ix".
- `Char.IsWhiteSpace` and `Trim` use the ASCII white-space set; the runtime also accepts non-ASCII spaces.
- `StartsWith`/`EndsWith` in all four overloads of `EnsureStartsWith` and `EnsureEndsWith` (the char overloads test `ToString()` of the character with the same string overload), in `DetectIsJson`, and the `CurrentCultureIgnoreCase` comparisons of `TrimEnd` and `TrimStart` are modelled as ordinal (with ASCII case folding for the last two). The source calls the culture-sensitive overloads, which compare linguistically: with ICU (.NET 5 and later) "\r\n" is one unit, so a text ending in "\r\n" does not end with "\n". Such a comparison also skips ignorable characters such as the soft hyphen U+00AD. The lines below name what this changes for each member.
- UTF-16. Strings are modelled as sequences of Unicode scalar values, not of UTF-16 code units. For text with characters outside the Basic Multilingual Plane (surrogate pairs) the model differs: lengths and cut points (`Limit`, `LimitWithEllipses`, the last-four format of `Obscured`, `CellText`), `Reverse` (the source reverses a pair into an invalid order), Luhn positions, and ordinal order (the runtime compares the high surrogate 0xD800.. against, say, 0xE000).
- Null strings. They are modelled only in `IsNullOrWhiteSpace`, which accepts null. In the source most extension calls on a null text throw `NullReferenceException`, with these exceptions. `StripAllButNumbers(null)` passes null to `Regex.Replace`, which throws `ArgumentNullException`. `Obscured(null, format)` with a format outside the four named ones returns "" without touching the text, because the switch has no default case. `TrimEnd`/`TrimStart` return a null text, and treat a null affix like an empty one. A null affix in the string overloads of `EnsureStartsWith`/`EnsureEndsWith` reaches `StartsWith`/`EndsWith`, which throw `ArgumentNullException`.
- `ObscuredTextFormat` values outside the four named ones. These make `Obscured` return the empty string.
- The `Value` and `Width` properties of `ConsoleListItem`. No modelled operation reads them.
- StringExtensions.ToBoolean: the contract only bounds which texts can be true (1 to 4 characters, starting with a letter or being "1"). Concrete accepted and rejected words are covered by the examples lemma, and case-insensitivity by its own lemma.
- StringExtensions.DetectIsJson: the contract only states that a positive answer needs two characters after trimming. Insensitivity to padding is a separate lemma.
- StringExtensions.DetectIsJson: the brace tests are ordinal. The source's linguistic `StartsWith("{")` skips ignorable characters, so it accepts "\u00AD{}" (a soft hyphen before the braces), which the model rejects.
- Affixes.TrimEnd: the affix test is ordinal, ignoring ASCII case. The source's linguistic comparison treats "\r\n" as one unit, so `TrimEnd("a\r\n", "\n")` leaves "a\r\n" there, where the model gives "a\r". Ignorable characters in the text or affix can also make the source match where the model does not.
- Affixes.TrimStart: the affix test is ordinal, ignoring ASCII case. The source leaves `TrimStart("\r\na", "\r")` unchanged, where the model gives "\na". After a linguistic match the source cuts `forRemoving.Length` characters, which with ignorable characters need not be the matched text; the model always cuts the affix itself.
- Affixes.EnsureStartsWith: the prefix test is ordinal, and the `TrimStart` it calls compares ordinally ignoring ASCII case. The soft hyphen U+00AD is ignorable in the source's linguistic comparison, so the source returns `EnsureStartsWith("\u00ADx", "x")` unchanged, where the model gives "x\u00ADx". The Turkish "I" case above also applies.
- Affixes.EnsureStartsWithChar: the test is ordinal. The source's linguistic `StartsWith` returns `EnsureStartsWith("\u00ADx", 'x')` unchanged, where the model gives "x\u00ADx".
- Affixes.EnsureEndsWithChar: the test is ordinal. With ICU "\r\n" is one unit, so the source gives `EnsureEndsWith("a\r\n", '\n') == "a\r\n\n"`, where the model returns "a\r\n".
- Affixes.EnsureEndsWith: the test is ordinal. For the same reason the source gives `EnsureEndsWith("a\r\n", "\n") == "a\r\n\n"`, where the model returns "a\r\n".
- Luhn.IsValidCreditCardNumber: the checksum is an unbounded integer, where the source's is an `Int32` that wraps. For an all-digit string every position adds at most 9, so the sum wraps only past 2^31/9 characters. Positions that are not doubled accept any character and add its code minus 48, up to 65487 for '\uFFFF'. So a string of about 65,600 characters (digits at the doubled positions, '\uFFFF' elsewhere) already wraps the source's checksum.
- Selector.CompareOrdinal: only the sign of `String.Compare(..., Ordinal)` is modelled, because the magnitude differs between runtime versions.
- Selector.CompareTo: only the sign, as above; a null `other` is not modelled.
- Menu.BuildItemMatrix: items are values, one per position, so the model assumes the list holds distinct objects. `ConsoleListItem` is a class, and the source writes `Selected` on shared objects: an object listed at several positions ends with the flag of its last position (with `[o, o]` and SelectedIndex 0, `o` ends unselected). `Menu.SharedSelectedFlags` states this case separately.
- Menu.BuildItemMatrix: requires `gridWidth >= 1`. With a smaller width the source's outer loop never ends, which a result value cannot express.
- Selector.SelectStepAsWritten: requires fewer than `Int32.MaxValue` items. The runtime's maximum array length is below that.
- Menu.MenuStepAsWritten: requires fewer than `Int32.MaxValue` items, as above.

## Findings

| source | as written | input that shows it | evidently intended | confidence | as-written member | corrected member |
|---|---|---|---|---|---|---|
| MediaFixer.Core/Terminal/Selector.cs:283-286 | The range check `SelectedIndex + 1 > Items.Count` is computed in 32 bits | SelectedIndex = 2147483647, three items, an unrecognised key. The sum wraps to -2147483648, neither check fires, and the index stays 2147483647 (`Selector.SelectStepAsWrittenKeepsMaxValue`) | After any key but Enter the index is in 0..Count-1, which is what the range check after the key switch is for | low: needs a caller that sets SelectedIndex to Int32.MaxValue; not executed | `Selector.SelectStepAsWritten` | `Selector.SelectStep` |
| MediaFixer.Core/Terminal/Menu.cs:321-342 | The moves and the check `SelectedIndex + 1 > Items.Count` are computed in 32 bits | SelectedIndex = 2147483647 with an unrecognised key stays out of range. With GridWidth = 2147483647, Down from item 1 of 3 wraps negative and clamps to 0 instead of 2. With GridWidth = 2147483646, Down from the in-range item 1 of 3 gives 2147483647 without wrapping, the `+ 1` of the check wraps, and the index leaves the list (`Menu.MenuStepAsWrittenOverflows`) | Moves saturate into 0..Count-1, which is what the bounds check after the key switch is for | low: needs an extreme SelectedIndex or GridWidth; not executed | `Menu.MenuStepAsWritten` | `Menu.MenuStep` |

=== FILE: affixes.dfy ===
/** The affix extensions of `StringExtensions`: `TrimEnd(string)`,
    `TrimStart(string)` (case-insensitive, repeated) and the two overloads each
    of `EnsureStartsWith` and `EnsureEndsWith` (case-sensitive). */
module Affixes {
  import opened Chars

  /** `p` occurs at position `j` of `s`, ignoring case. */
  predicate MatchesAt(s: string, p: string, j: int) {
    0 <= j <= |s| - |p| && EqualsIgnoreCase(s[j..j + |p|], p)
  }

  /** `s` is zero or more copies of `p`, each equal to `p` ignoring case. */
  predicate Repeats(s: string, p: string)
    requires |p| > 0
    decreases |s|
  {
    |s| == 0 || (StartsWithIgnoreCase(s, p) && Repeats(s[|p|..], p))
  }

  lemma {:induction false} RepeatsAppend(a: string, b: string, p: string)
    requires |p| > 0 && Repeats(a, p) && |b| == |p| && EqualsIgnoreCase(b, p)
    ensures Repeats(a + b, p)
    decreases |a|
  {
    if |a| == 0 {
      assert a + b == b;
      assert b[|p|..] == [];
    } else {
      assert (a + b)[..|p|] == a[..|p|];
      assert (a + b)[|p|..] == a[|p|..] + b;
      RepeatsAppend(a[|p|..], b, p);
    }
  }

  lemma RepeatsPrepend(a: string, b: string, p: string)
    requires |p| > 0 && |a| == |p| && EqualsIgnoreCase(a, p) && Repeats(b, p)
    ensures Repeats(a + b, p)
  {
    assert (a + b)[..|p|] == a;
    assert (a + b)[|p|..] == b;
  }

  /** The last position at or before `k` where `p` occurs in `s` ignoring case, or -1. */
  function SearchBack(s: string, p: string, k: int): (r: int)
    requires k <= |s| - |p|
    ensures r == -1 || 0 <= r <= k
    ensures r >= 0 ==> MatchesAt(s, p, r)
    ensures forall j :: r < j <= k ==> !MatchesAt(s, p, j)
    decreases k + 1
  {
    if k < 0 then -1
    else if MatchesAt(s, p, k) then k
    else SearchBack(s, p, k - 1)
  }

  /** `String.LastIndexOf(p, CurrentCultureIgnoreCase)`. */
  function LastIndexOfIgnoreCase(s: string, p: string): (r: int)
    ensures r == -1 || 0 <= r <= |s| - |p|
    ensures r >= 0 ==> MatchesAt(s, p, r)
    ensures forall j :: r < j <= |s| - |p| ==> !MatchesAt(s, p, j)
  {
    SearchBack(s, p, |s| - |p|)
  }

  /** The loop of `TrimEnd`: while `text` ends with `p`, cut it at the last
      occurrence of `p`, which is that ending. */
  function TrimEndLoop(text: string, p: string): (r: string)
    requires |p| > 0
    ensures r <= text
    ensures !EndsWithIgnoreCase(r, p)
    ensures Repeats(text[|r|..], p)
    decreases |text|
  {
    if EndsWithIgnoreCase(text, p) then
      var at := LastIndexOfIgnoreCase(text, p);
      assert MatchesAt(text, p, |text| - |p|);
      assert at == |text| - |p|;
      var r := TrimEndLoop(text[..at], p);
      assert text[|r|..] == text[..at][|r|..] + text[at..];
      RepeatsAppend(text[..at][|r|..], text[at..], p);
      r
    else
      assert text[|text|..] == [];
      text
  }

  /** `TrimEnd(text, forRemoving)`: an empty text or an empty affix leaves the
      text unchanged. Otherwise the result is a prefix of the text that no
      longer ends with the affix, and what was cut off is a run of copies of
      the affix, each equal to it ignoring case. */
  function TrimEnd(text: string, forRemoving: string): (r: string)
    ensures r <= text
    ensures |text| == 0 || |forRemoving| == 0 ==> r == text
    ensures |forRemoving| > 0 ==> !EndsWithIgnoreCase(r, forRemoving) && Repeats(text[|r|..], forRemoving)
  {
    if |text| == 0 || |forRemoving| == 0 then text
    else TrimEndLoop(text, forRemoving)
  }

  /** The loop of `TrimStart`: while `text` starts with `p`, drop that start. */
  function TrimStartLoop(text: string, p: string): (r: string)
    requires |p| > 0
    ensures |r| <= |text| && r == text[|text| - |r|..]
    ensures !StartsWithIgnoreCase(r, p)
    ensures Repeats(text[..|text| - |r|], p)
    decreases |text|
  {
    if StartsWithIgnoreCase(text, p) then
      var rest := text[|p|..];
      var r := TrimStartLoop(rest, p);
      SplitAfterPrefix(text, |p|, |rest| - |r|);
      RepeatsPrepend(text[..|p|], rest[..|rest| - |r|], p);
      r
    else
      text
  }

  /** Cutting `k` characters off the front, then `m` more, is cutting `k + m`. */
  lemma SplitAfterPrefix(text: string, k: int, m: int)
    requires 0 <= k <= |text| && 0 <= m <= |text| - k
    ensures text[..k + m] == text[..k] + text[k..][..m]
    ensures text[k + m..] == text[k..][m..]
  {
  }

  /** `TrimStart(text, forRemoving)`: an empty text or an empty affix leaves
      the text unchanged. Otherwise the result is a suffix of the text that no
      longer starts with the affix, and what was cut off is a run of copies of
      the affix, each equal to it ignoring case. */
  function TrimStart(text: string, forRemoving: string): (r: string)
    ensures |r| <= |text| && r == text[|text| - |r|..]
    ensures |text| == 0 || |forRemoving| == 0 ==> r == text
    ensures |forRemoving| > 0 ==>
      !StartsWithIgnoreCase(r, forRemoving) && Repeats(text[..|text| - |r|], forRemoving)
  {
    if |text| == 0 || |forRemoving| == 0 then text
    else TrimStartLoop(text, forRemoving)
  }

  /** Trimming an affix twice trims nothing more. */
  lemma TrimEndIdempotent(text: string, forRemoving: string)
    ensures TrimEnd(TrimEnd(text, forRemoving), forRemoving) == TrimEnd(text, forRemoving)
  {
  }

  lemma TrimStartIdempotent(text: string, forRemoving: string)
    ensures TrimStart(TrimStart(text, forRemoving), forRemoving) == TrimStart(text, forRemoving)
  {
  }

  /** `EnsureStartsWith(text, toStartWith)`: the result starts with the affix
      (case-sensitively). A text that already does is returned as it is;
      otherwise the affix is put in front of what remains after `TrimStart`
      has removed leading copies of it that differ only in case. */
  function EnsureStartsWith(text: string, toStartWith: string): (r: string)
    ensures StartsWith(r, toStartWith)
    ensures StartsWith(text, toStartWith) ==> r == text
    ensures !StartsWith(text, toStartWith) ==>
      var rest := r[|toStartWith|..];
      |rest| <= |text| && rest == text[|text| - |rest|..]
      && !StartsWithIgnoreCase(rest, toStartWith)
      && Repeats(text[..|text| - |rest|], toStartWith)
  {
    if StartsWith(text, toStartWith) then text
    else
      var rest := TrimStart(text, toStartWith);
      assert (toStartWith + rest)[|toStartWith|..] == rest;
      toStartWith + rest
  }

  /** `EnsureStartsWith(text, c)`: the text if it starts with `c`, else `c` put in front. */
  function EnsureStartsWithChar(text: string, toStartWith: char): (r: string)
    ensures |r| > 0 && r[0] == toStartWith
    ensures r == text <==> |text| > 0 && text[0] == toStartWith
    ensures r != text ==> r == [toStartWith] + text
  {
    if StartsWith(text, [toStartWith]) then text else [toStartWith] + text
  }

  /** `EnsureEndsWith(text, c)`: the text if it ends with `c`, else `c` appended. */
  function EnsureEndsWithChar(text: string, toEndWith: char): (r: string)
    ensures |r| > 0 && r[|r| - 1] == toEndWith
    ensures r == text <==> |text| > 0 && text[|text| - 1] == toEndWith
    ensures r != text ==> r == text + [toEndWith]
  {
    if EndsWith(text, [toEndWith]) then text else text + [toEndWith]
  }

  /** `EnsureEndsWith(text, toEndWith)`: the text if it ends with the affix
      (case-sensitively), else the affix appended. */
  function EnsureEndsWith(text: string, toEndWith: string): (r: string)
    ensures EndsWith(r, toEndWith)
    ensures r == text <==> EndsWith(text, toEndWith)
    ensures r != text ==> r == text + toEndWith
  {
    if EndsWith(text, toEndWith) then text
    else
      assert (text + toEndWith)[|text + toEndWith| - |toEndWith|..] == toEndWith;
      text + toEndWith
  }

  /** Ensuring an affix twice adds nothing the second time. */
  lemma EnsureIdempotent(text: string, s: string, c: char)
    ensures EnsureStartsWith(EnsureStartsWith(text, s), s) == EnsureStartsWith(text, s)
    ensures EnsureEndsWith(EnsureEndsWith(text, s), s) == EnsureEndsWith(text, s)
    ensures EnsureStartsWithChar(EnsureStartsWithChar(text, c), c) == EnsureStartsWithChar(text, c)
    ensures EnsureEndsWithChar(EnsureEndsWithChar(text, c), c) == EnsureEndsWithChar(text, c)
  {
  }

  /** Copies of the extension in any case are cut from the end. */
  lemma TrimEndExample()
    ensures TrimEnd("movie.mkv.MKV", ".mkv") == "movie"
  {
    TrimEndUpperCopy();
    TrimEndLowerCopy();
    TrimEndLoopStops("movie", ".mkv");
  }

  lemma TrimEndUpperCopy()
    ensures TrimEndLoop("movie.mkv.MKV", ".mkv") == TrimEndLoop("movie.mkv", ".mkv")
  {
    assert EndsWithIgnoreCase("movie.mkv.MKV", ".mkv") by {
      assert "movie.mkv.MKV"[9..] == ".MKV";
      LowerMkv();
    }
    TrimEndLoopSkips("movie.mkv.MKV", ".mkv");
    assert "movie.mkv.MKV"[..9] == "movie.mkv";
  }

  lemma LowerMkv()
    ensures Lower(".MKV") == Lower(".mkv")
  {
    assert ToLower('M') == 'm' && ToLower('K') == 'k' && ToLower('V') == 'v';
    assert Lower(".MKV") == ".mkv";
    assert Lower(".mkv") == ".mkv";
  }

  lemma TrimEndLowerCopy()
    ensures TrimEndLoop("movie.mkv", ".mkv") == TrimEndLoop("movie", ".mkv")
  {
    assert "movie.mkv"[5..] == ".mkv";
    TrimEndLoopSkips("movie.mkv", ".mkv");
    assert "movie.mkv"[..5] == "movie";
  }

  lemma TrimEndLoopSkips(text: string, p: string)
    requires |p| > 0 && EndsWithIgnoreCase(text, p)
    ensures TrimEndLoop(text, p) == TrimEndLoop(text[..|text| - |p|], p)
  {
    assert MatchesAt(text, p, |text| - |p|);
  }

  lemma TrimEndLoopStops(text: string, p: string)
    requires 0 < |p| <= |text| && ToLower(text[|text| - 1]) != ToLower(p[|p| - 1])
    ensures TrimEndLoop(text, p) == text
  {
    assert Lower(text[|text| - |p|..])[|p| - 1] != Lower(p)[|p| - 1];
  }

  /** Copies of an article in any case are cut from the start. */
  lemma TrimStartExample()
    ensures TrimStart("the the film", "THE ") == "film"
  {
    assert StartsWithIgnoreCase("the the film", "THE ") by {
      assert "the the film"[..4] == "the ";
      assert Lower("THE ") == "the " == Lower("the ");
    }
    assert "the the film"[4..] == "the film";
    assert StartsWithIgnoreCase("the film", "THE ") by {
      assert "the film"[..4] == "the ";
      assert Lower("THE ") == "the " == Lower("the ");
    }
    assert "the film"[4..] == "film";
    TrimStartLoopStops("film", "THE ");
  }

  lemma EnsureStartsWithExample()
    ensures EnsureStartsWith("ABCdef", "abc") == "abcdef"
  {
    TrimStartCaseExample();
    assert !StartsWith("ABCdef", "abc") by { assert "ABCdef"[0] != "abc"[0]; }
  }

  /** One copy of the affix in another case is cut, and the rest stays. */
  lemma TrimStartCaseExample()
    ensures TrimStart("ABCdef", "abc") == "def"
  {
    assert StartsWithIgnoreCase("ABCdef", "abc") by {
      assert "ABCdef"[..3] == "ABC";
      assert Lower("ABC") == "abc" == Lower("abc");
    }
    assert "ABCdef"[3..] == "def";
    TrimStartLoopStops("def", "abc");
  }

  lemma TrimStartLoopStops(text: string, p: string)
    requires |p| > 0 && |text| > 0 && |p| <= |text| && ToLower(text[0]) != ToLower(p[0])
    ensures TrimStartLoop(text, p) == text
  {
    assert Lower(text[..|p|])[0] != Lower(p)[0];
  }

  lemma EnsureEndsWithExample()
    ensures EnsureEndsWith("dir", "/") == "dir/"
  {
  }
}

=== FILE: chars.dfy ===
/** Characters and the runtime string primitives the extensions build on.

    Casing is ASCII case folding (the invariant culture's mapping on ASCII
    letters; other letters are left alone), and white space is the ASCII
    white-space set. The runtime's culture-aware `ToLower`/`ToUpper`
    differ even on ASCII text under some cultures (Turkish and Azerbaijani map
    'I' to a dotless 'ı'), and its `Char.IsWhiteSpace` also accepts non-ASCII
    spaces. Prefix and suffix tests are ordinal; the runtime's culture-aware
    `StartsWith`/`EndsWith` compare linguistically (with ICU, "\r\n" is one
    unit). Strings are sequences of Unicode scalar values, not UTF-16 code
    units. */
module Chars {

  /** Tab, line feed, vertical tab, form feed, carriage return and space. */
  predicate IsWhiteSpace(c: char) {
    c == ' ' || '\t' <= c <= '\r'
  }

  predicate IsDigit(c: char) {
    '0' <= c <= '9'
  }

  predicate IsUpper(c: char) {
    'A' <= c <= 'Z'
  }

  predicate IsLower(c: char) {
    'a' <= c <= 'z'
  }

  predicate AllWhiteSpace(s: string) {
    forall i :: 0 <= i < |s| ==> IsWhiteSpace(s[i])
  }

  function ToLower(c: char): (r: char)
    ensures !IsUpper(r)
    ensures IsWhiteSpace(r) == IsWhiteSpace(c) && IsDigit(r) == IsDigit(c)
  {
    if IsUpper(c) then (c as int + 32) as char else c
  }

  function ToUpper(c: char): (r: char)
    ensures !IsLower(r)
    ensures IsWhiteSpace(r) == IsWhiteSpace(c) && IsDigit(r) == IsDigit(c)
  {
    if IsLower(c) then (c as int - 32) as char else c
  }

  /** `String.ToLower`, character by character. */
  function Lower(s: string): (r: string)
    ensures |r| == |s|
  {
    seq(|s|, i requires 0 <= i < |s| => ToLower(s[i]))
  }

  /** Equality under `StringComparison.CurrentCultureIgnoreCase`. */
  predicate EqualsIgnoreCase(a: string, b: string) {
    Lower(a) == Lower(b)
  }

  /** Ordinal `String.StartsWith`. */
  predicate StartsWith(s: string, prefix: string) {
    |prefix| <= |s| && s[..|prefix|] == prefix
  }

  /** Ordinal `String.EndsWith`. */
  predicate EndsWith(s: string, suffix: string) {
    |suffix| <= |s| && s[|s| - |suffix|..] == suffix
  }

  predicate StartsWithIgnoreCase(s: string, prefix: string) {
    |prefix| <= |s| && EqualsIgnoreCase(s[..|prefix|], prefix)
  }

  predicate EndsWithIgnoreCase(s: string, suffix: string) {
    |suffix| <= |s| && EqualsIgnoreCase(s[|s| - |suffix|..], suffix)
  }

  /** `s` with its leading white space removed. */
  function TrimLeading(s: string): (r: string)
    ensures |r| <= |s| && r == s[|s| - |r|..]
    ensures AllWhiteSpace(s[..|s| - |r|])
    ensures |r| > 0 ==> !IsWhiteSpace(r[0])
  {
    if |s| > 0 && IsWhiteSpace(s[0]) then TrimLeading(s[1..]) else s
  }

  /** `s` with its trailing white space removed. */
  function TrimTrailing(s: string): (r: string)
    ensures |r| <= |s| && r == s[..|r|]
    ensures AllWhiteSpace(s[|r|..])
    ensures |r| > 0 ==> !IsWhiteSpace(r[|r| - 1])
  {
    if |s| > 0 && IsWhiteSpace(s[|s| - 1]) then TrimTrailing(s[..|s| - 1]) else s
  }

  /** `r` is the piece of `s` at offset `a`, with only white space before and after it. */
  predicate TrimmedAt(s: string, r: string, a: int) {
    0 <= a <= |s| - |r| && r == s[a..a + |r|] && AllWhiteSpace(s[..a]) && AllWhiteSpace(s[a + |r|..])
  }

  /** `String.Trim()`: `s` without white space at either end. The result is a
      contiguous piece of `s`, everything around it is white space, and it
      neither starts nor ends with white space. */
  function Trim(s: string): (r: string)
    ensures exists a :: TrimmedAt(s, r, a)
    ensures |r| > 0 ==> !IsWhiteSpace(r[0]) && !IsWhiteSpace(r[|r| - 1])
  {
    var lead := TrimLeading(s);
    var r := TrimTrailing(lead);
    TrimWitness(s, lead, r);
    r
  }

  /** A suffix `lead` of `s` after white space, cut down to a prefix `r`
      before white space, is a piece of `s` with white space on both sides. */
  lemma TrimWitness(s: string, lead: string, r: string)
    requires |lead| <= |s| && lead == s[|s| - |lead|..] && AllWhiteSpace(s[..|s| - |lead|])
    requires |r| <= |lead| && r == lead[..|r|] && AllWhiteSpace(lead[|r|..])
    ensures TrimmedAt(s, r, |s| - |lead|)
  {
    var a := |s| - |lead|;
    assert s[a..a + |r|] == lead[..|r|];
    assert s[a + |r|..] == lead[|r|..];
  }

  /** Trimming leaves nothing exactly when the text is all white space. */
  lemma TrimEmptyIffAllWhiteSpace(s: string)
    ensures |Trim(s)| == 0 <==> AllWhiteSpace(s)
  {
    var lead := TrimLeading(s);
    assert Trim(s) == TrimTrailing(lead);
    if AllWhiteSpace(s) {
      AllWhiteSpaceTrimsAway(s);
    }
    if |Trim(s)| == 0 {
      assert lead[|TrimTrailing(lead)|..] == lead;
      assert s == s[..|s| - |lead|] + lead;
      AllWhiteSpaceConcat(s[..|s| - |lead|], lead);
    }
  }

  lemma {:induction false} AllWhiteSpaceTrimsAway(s: string)
    requires AllWhiteSpace(s)
    ensures TrimLeading(s) == []
    decreases |s|
  {
    if |s| > 0 {
      assert AllWhiteSpace(s[1..]) by {
        forall i | 0 <= i < |s| - 1 ensures IsWhiteSpace(s[1..][i]) {
          assert s[1..][i] == s[i + 1];
        }
      }
      AllWhiteSpaceTrimsAway(s[1..]);
    }
  }

  lemma AllWhiteSpaceConcat(a: string, b: string)
    requires AllWhiteSpace(a) && AllWhiteSpace(b)
    ensures AllWhiteSpace(a + b)
  {
    forall i | 0 <= i < |a + b| ensures IsWhiteSpace((a + b)[i]) {
      if i < |a| { assert (a + b)[i] == a[i]; } else { assert (a + b)[i] == b[i - |a|]; }
    }
  }

  /** White space around a text does not change what `Trim` yields. */
  lemma {:induction false} TrimIgnoresPadding(w: string, s: string, w': string)
    requires AllWhiteSpace(w) && AllWhiteSpace(w')
    ensures Trim(w + s + w') == Trim(s)
  {
    calc {
      Trim(w + s + w');
      { assert w + s + w' == w + (s + w'); }
      TrimTrailing(TrimLeading(w + (s + w')));
      { TrimLeadingPadding(w, s + w'); }
      TrimTrailing(TrimLeading(s + w'));
      { TrimLeadingSuffix(s, w'); }
      TrimTrailing(TrimLeading(s));
      Trim(s);
    }
  }

  lemma {:induction false} TrimLeadingPadding(w: string, s: string)
    requires AllWhiteSpace(w)
    ensures TrimLeading(w + s) == TrimLeading(s)
    decreases |w|
  {
    if |w| > 0 {
      assert (w + s)[0] == w[0];
      assert (w + s)[1..] == w[1..] + s;
      TrimLeadingPadding(w[1..], s);
    } else {
      assert w + s == s;
    }
  }

  lemma {:induction false} TrimTrailingPadding(s: string, w: string)
    requires AllWhiteSpace(w)
    ensures TrimTrailing(s + w) == TrimTrailing(s)
    decreases |w|
  {
    if |w| > 0 {
      assert (s + w)[|s + w| - 1] == w[|w| - 1];
      assert (s + w)[..|s + w| - 1] == s + w[..|w| - 1];
      TrimTrailingPadding(s, w[..|w| - 1]);
    } else {
      assert s + w == s;
    }
  }

  /** Trailing white space is removed by the trailing trim alone. */
  lemma {:induction false} TrimLeadingSuffix(s: string, w: string)
    requires AllWhiteSpace(w)
    ensures TrimTrailing(TrimLeading(s + w)) == TrimTrailing(TrimLeading(s))
    decreases |s|
  {
    if |s| == 0 {
      assert s + w == w;
    } else if IsWhiteSpace(s[0]) {
      assert (s + w)[0] == s[0];
      assert (s + w)[1..] == s[1..] + w;
      TrimLeadingSuffix(s[1..], w);
    } else {
      assert (s + w)[0] == s[0];
      TrimTrailingPadding(s, w);
    }
  }
}

=== FILE: int32.dfy ===
/** Two's-complement 32-bit integers, as the runtime's `Int32` with unchecked
    arithmetic (the default for the modelled code). */
module Int32 {

  const Min: int := -0x8000_0000
  const Max: int := 0x7FFF_FFFF
  const Modulus: int := 0x1_0000_0000

  predicate InRange(x: int) {
    Min <= x <= Max
  }

  /** The `Int32` value an unchecked operation yields when its exact result is `x`. */
  function Wrap(x: int): (r: int)
    ensures InRange(r)
    ensures (x - r) % Modulus == 0
    ensures InRange(x) ==> r == x
  {
    (x - Min) % Modulus + Min
  }
}

=== FILE: luhn.dfy ===
/** `IsValidCreditCardNumber`: the Luhn mod-10 check digit test of ISO/IEC
    7812-1 (Annex B), computed right to left with a table of deltas. */
module Luhn {
  import opened Results
  import opened Chars

  /** The source's table: `Deltas[j]` turns `j` into the digit sum of `2 * j`. */
  const Deltas: seq<int> := [0, 1, 2, 3, 4, -4, -3, -2, -1, 0]

  /** The remainder of C#'s `%` operator, which truncates toward zero. */
  function CsRem(a: int, b: int): int
    requires b > 0
  {
    if a >= 0 then a % b else -((-a) % b)
  }

  /** The sum of the decimal digits of `n`. */
  function DigitSum(n: nat): nat
  {
    if n < 10 then n else n % 10 + DigitSum(n / 10)
  }

  /** Whether the digit at position `i` of an `n`-digit number is doubled:
      counting from the check digit at the right end (distance 0), every digit
      at odd distance is. */
  predicate Doubled(n: int, i: int) {
    (n - 1 - i) % 2 == 1
  }

  /** The number a character stands for (`(Int32)c - 48`). */
  function Value(c: char): int {
    c as int - 48
  }

  /** The doubled positions hold digits, so the Luhn sum is defined. */
  predicate Computable(s: string) {
    forall i :: 0 <= i < |s| && Doubled(|s|, i) ==> IsDigit(s[i])
  }

  /** The contribution of position `i`: the digit sum of twice its value where
      doubled, its value otherwise. */
  function Term(s: string, i: int): int
    requires 0 <= i < |s| && Computable(s)
  {
    if Doubled(|s|, i) then DigitSum(2 * Value(s[i])) else Value(s[i])
  }

  /** The Luhn sum of positions `i` to the end of `s`. */
  function SumFrom(s: string, i: int): int
    requires 0 <= i <= |s| && Computable(s)
    decreases |s| - i
  {
    if i == |s| then 0 else Term(s, i) + SumFrom(s, i + 1)
  }

  /** The Luhn sum of the whole number. */
  function LuhnSum(s: string): int
    requires Computable(s)
  {
    SumFrom(s, 0)
  }

  /** The source's parity test `((i - n) % 2) == 0` picks the doubled positions. */
  lemma ParityTest(n: int, i: int)
    requires 0 <= i < n
    ensures (CsRem(i - n, 2) == 0) == Doubled(n, i)
  {
  }

  /** The deltas table is the digit sum of the doubled digit minus the digit. */
  lemma DeltasTable(j: int)
    requires 0 <= j <= 9
    ensures j + Deltas[j] == DigitSum(2 * j)
  {
    if j >= 5 {
      assert DigitSum(2 * j) == 1 + (2 * j - 10) by {
        assert (2 * j) / 10 == 1 && (2 * j) % 10 == 2 * j - 10;
      }
    }
  }

  /** `IsValidCreditCardNumber`: sums the digits from the right end, adding
      `Deltas[j]` for doubled positions, and accepts a sum divisible by 10.
      A doubled position whose character is not a digit indexes the table out
      of range and throws; any other character adds its code minus 48. */
  method IsValidCreditCardNumber(cardNumber: string) returns (r: Result<bool>)
    ensures r.Throws? <==> !Computable(cardNumber)
    ensures r.Throws? ==> r.exception == IndexOutOfRange
    ensures r.Ok? ==> (r.value <==> LuhnSum(cardNumber) % 10 == 0)
  {
    var n := |cardNumber|;
    var checksum := 0;
    var i := n - 1;
    while i > -1
      invariant -1 <= i < n
      invariant forall k :: i < k < n && Doubled(n, k) ==> IsDigit(cardNumber[k])
      invariant Computable(cardNumber) ==> checksum == SumFrom(cardNumber, i + 1)
      decreases i
    {
      var j := Value(cardNumber[i]);
      checksum := checksum + j;
      ParityTest(n, i);
      if CsRem(i - n, 2) == 0 {
        if j < 0 || j >= |Deltas| {
          return Throws(IndexOutOfRange);
        }
        DeltasTable(j);
        checksum := checksum + Deltas[j];
      }
      i := i - 1;
    }
    return Ok(checksum % 10 == 0);
  }

  /** Over the digits, a term is a digit, and distinct digits give distinct terms. */
  lemma TermIsDigit(d: int, e: int, doubled: bool)
    requires 0 <= d <= 9 && 0 <= e <= 9
    ensures 0 <= (if doubled then DigitSum(2 * d) else d) <= 9
    ensures d != e ==> (if doubled then DigitSum(2 * d) else d) != (if doubled then DigitSum(2 * e) else e)
  {
    DeltasTable(d);
    DeltasTable(e);
  }

  /** Two numbers that differ only at position `k` have Luhn sums that differ
      by the difference of their terms at `k`. */
  lemma {:induction false} SumFromDiffers(s: string, t: string, k: int, i: int)
    requires |s| == |t| && Computable(s) && Computable(t)
    requires 0 <= k < |s| && 0 <= i <= |s|
    requires forall j :: 0 <= j < |s| && j != k ==> s[j] == t[j]
    ensures SumFrom(s, i) - SumFrom(t, i) == if i <= k then Term(s, k) - Term(t, k) else 0
    decreases |s| - i
  {
    if i < |s| {
      SumFromDiffers(s, t, k, i + 1);
    }
  }

  /** The check catches every single mistyped digit: two digit strings that
      differ in exactly one position are never both valid. */
  lemma SingleDigitErrorDetected(s: string, t: string, k: int)
    requires |s| == |t| && 0 <= k < |s|
    requires forall j :: 0 <= j < |s| ==> IsDigit(s[j]) && IsDigit(t[j])
    requires s[k] != t[k]
    requires forall j :: 0 <= j < |s| && j != k ==> s[j] == t[j]
    ensures !(LuhnSum(s) % 10 == 0 && LuhnSum(t) % 10 == 0)
  {
    assert Computable(s) && Computable(t);
    SumFromDiffers(s, t, k, 0);
    TermIsDigit(Value(s[k]), Value(t[k]), Doubled(|s|, k));
    MultiplesOfTenClose(LuhnSum(s), LuhnSum(t));
  }

  /** Two multiples of 10 less than 10 apart are equal. */
  lemma MultiplesOfTenClose(a: int, b: int)
    requires -10 < a - b < 10
    ensures a % 10 == 0 && b % 10 == 0 ==> a == b
  {
    if a % 10 == 0 && b % 10 == 0 {
      assert a - b == 10 * (a / 10 - b / 10);
    }
  }

  /** The textbook example 79927398713 has Luhn sum 70, so it passes. */
  lemma LuhnExampleSum()
    ensures Computable("79927398713") && LuhnSum("79927398713") == 70
  {
    var s := "79927398713";
    assert Computable(s);
    assert SumFrom(s, 11) == 0;
    assert SumFrom(s, 10) == 3;
    assert SumFrom(s, 9) == 5;
    assert SumFrom(s, 8) == 12;
    assert DigitSum(16) == 7 && DigitSum(18) == 9;
    assert SumFrom(s, 7) == 19;
    assert SumFrom(s, 6) == 28;
    assert SumFrom(s, 5) == 34;
    assert SumFrom(s, 4) == 41;
    assert SumFrom(s, 3) == 45;
    assert SumFrom(s, 2) == 54;
    assert SumFrom(s, 1) == 63;
  }

  /** The empty number passes, and changing the check digit of the textbook
      example to 0 makes its Luhn sum 67, so it fails. */
  lemma LuhnExamples()
    ensures LuhnSum("") % 10 == 0
    ensures Computable("79927398710") && LuhnSum("79927398710") == 67
  {
    var t := "79927398710";
    assert Computable(t);
    assert SumFrom(t, 11) == 0;
    assert SumFrom(t, 10) == 0;
    assert SumFrom(t, 9) == 2;
    assert SumFrom(t, 8) == 9;
    assert DigitSum(16) == 7 && DigitSum(18) == 9;
    assert SumFrom(t, 7) == 16;
    assert SumFrom(t, 6) == 25;
    assert SumFrom(t, 5) == 31;
    assert SumFrom(t, 4) == 38;
    assert SumFrom(t, 3) == 42;
    assert SumFrom(t, 2) == 51;
    assert SumFrom(t, 1) == 60;
  }
}

=== FILE: menu.dfy ===
/** The logic of the grid menu widget in `Menu.cs`: `BuildItemMatrix`, the
    clamped key transition of `ConsoleMenuList.Execute` and the cell text that
    `PlaceItems` writes. Rendering is not modelled. */
module Menu {
  import Int32
  import opened Results
  import opened Selector

  /** The rows of the grid laid end to end. */
  function Flatten(rows: seq<seq<ListItem>>): seq<ListItem>
  {
    if |rows| == 0 then [] else Flatten(rows[..|rows| - 1]) + rows[|rows| - 1]
  }

  lemma FlattenAppend(rows: seq<seq<ListItem>>, row: seq<ListItem>)
    ensures Flatten(rows + [row]) == Flatten(rows) + row
  {
    assert (rows + [row])[..|rows|] == rows;
  }

  /** Rows of exactly `width` items hold `width` items each in all. */
  lemma {:induction false} FlattenFullRows(rows: seq<seq<ListItem>>, width: int)
    requires forall j :: 0 <= j < |rows| ==> |rows[j]| == width
    ensures |Flatten(rows)| == |rows| * width
  {
    if |rows| > 0 {
      FlattenFullRows(rows[..|rows| - 1], width);
    }
  }

  /** The grid shape: at least one row, every row but the last holding exactly
      `width` items and the last holding between 1 and `width`. */
  predicate IsGrid(rows: seq<seq<ListItem>>, width: int) {
    && |rows| > 0
    && (forall j :: 0 <= j < |rows| - 1 ==> |rows[j]| == width)
    && 1 <= |rows[|rows| - 1]| <= width
  }

  /** `m` rows of `width` columns, the last holding `last` items, hold
      `(m - 1) * width + last` items, and the rounded-up quotient gives back `m`. */
  lemma CeilingRows(m: int, width: int, last: int)
    requires m >= 1 && 1 <= last <= width
    ensures ((m - 1) * width + last + width - 1) / width == m
  {
    var a := (m - 1) * width + last + width - 1;
    assert a == m * width + (last - 1);
    var d, rem := a / width, a % width;
    assert (d - m) * width == (last - 1) - rem;
    if d - m >= 1 {
      assert false;
    } else if d - m <= -1 {
      assert false;
    }
  }

  /** A grid of `width` columns holding `n` items has ceil(n / width) rows. */
  lemma GridRowCount(rows: seq<seq<ListItem>>, width: int)
    requires width >= 1 && IsGrid(rows, width)
    ensures |rows| == (|Flatten(rows)| + width - 1) / width
  {
    var m := |rows|;
    var full := rows[..m - 1];
    FlattenFullRows(full, width);
    assert full + [rows[m - 1]] == rows;
    FlattenAppend(full, rows[m - 1]);
    CeilingRows(m, width, |rows[m - 1]|);
  }

  /** The result of `BuildItemMatrix`: the grid and the items with their
      `Selected` flags rewritten. */
  datatype ItemMatrix = ItemMatrix(rows: seq<seq<ListItem>>, items: seq<ListItem>)

  /** `BuildItemMatrix`: marks the item at `selectedIndex` as selected and every
      other item as not selected, and cuts the items into rows of `gridWidth`.
      Read in order, the rows are the items; there are ceil(n / gridWidth) of
      them, all full but the last. An empty list throws on `Items[0]`; a width
      below 1 never ends the outer loop, so the source needs `gridWidth >= 1`. */
  method BuildItemMatrix(items: seq<ListItem>, gridWidth: int, selectedIndex: int) returns (r: Result<ItemMatrix>)
    requires gridWidth >= 1
    ensures r.Ok? <==> |items| > 0
    ensures r.Throws? ==> r.exception == ArgumentOutOfRange
    ensures r.Ok? ==>
      && |r.value.items| == |items|
      && (forall k :: 0 <= k < |items| ==> r.value.items[k] == ListItem(items[k].text, k == selectedIndex))
      && Flatten(r.value.rows) == r.value.items
      && IsGrid(r.value.rows, gridWidth)
      && |r.value.rows| == (|items| + gridWidth - 1) / gridWidth
  {
    if |items| == 0 {
      return Throws(ArgumentOutOfRange);
    }
    var n := |items|;
    var marked := items;
    var rows: seq<seq<ListItem>> := [];
    var flag := true;
    var count := 0;
    while flag
      invariant 0 <= count < n && |marked| == n
      invariant forall k :: 0 <= k < n ==> marked[k].text == items[k].text
      invariant forall k :: 0 <= k < count ==> marked[k].selected == (k == selectedIndex)
      invariant flag ==> Flatten(rows) == marked[..count]
      invariant flag ==> forall j :: 0 <= j < |rows| ==> |rows[j]| == gridWidth
      invariant !flag ==> count == n - 1 && marked[count].selected == (count == selectedIndex)
      invariant !flag ==> Flatten(rows) == marked && IsGrid(rows, gridWidth)
      decreases n - count, flag
    {
      var row: seq<ListItem> := [];
      var i := 0;
      ghost var start := count;
      while i < gridWidth
        invariant 0 <= i <= gridWidth && |row| == i && count == start + i
        invariant 0 <= count < n && |marked| == n
        invariant forall k :: 0 <= k < n ==> marked[k].text == items[k].text
        invariant forall k :: 0 <= k < count ==> marked[k].selected == (k == selectedIndex)
        invariant Flatten(rows) + row == marked[..count]
      {
        marked := marked[count := marked[count].(selected := count == selectedIndex)];
        row := row + [marked[count]];
        if count + 1 == n {
          flag := false;
          break;
        }
        count := count + 1;
        i := i + 1;
      }
      FlattenAppend(rows, row);
      rows := rows + [row];
    }
    GridRowCount(rows, gridWidth);
    r := Ok(ItemMatrix(rows, marked));
  }

  /** No later position of `ids` names the object at position `k`. */
  predicate LastPosition(ids: seq<int>, k: int)
    requires 0 <= k < |ids|
  {
    forall j :: k < j < |ids| ==> ids[j] != ids[k]
  }

  /** The `Selected` flags the marking loop of `BuildItemMatrix` leaves on the
      item objects when positions of the list may share one object: `ids[k]`
      names the object at position `k`, and the positions are written in
      order, so an object keeps the flag of its last position. */
  function SharedSelectedFlags(ids: seq<int>, selectedIndex: int): (m: map<int, bool>)
    ensures forall o :: o in m <==> o in ids
    ensures forall k :: 0 <= k < |ids| && LastPosition(ids, k) ==>
      ids[k] in m && m[ids[k]] == (k == selectedIndex)
    decreases |ids|
  {
    if |ids| == 0 then map[]
    else
      var n := |ids| - 1;
      var before := SharedSelectedFlags(ids[..n], selectedIndex);
      assert ids == ids[..n] + [ids[n]];
      assert forall k :: 0 <= k < n && LastPosition(ids, k) ==>
        ids[k] in before && before[ids[k]] == (k == selectedIndex) && ids[k] != ids[n] by {
        forall k | 0 <= k < n && LastPosition(ids, k)
          ensures ids[k] in before && before[ids[k]] == (k == selectedIndex) && ids[k] != ids[n]
        {
          assert ids[..n][k] == ids[k];
          assert LastPosition(ids[..n], k);
        }
      }
      before[ids[n] := n == selectedIndex]
  }

  /** With distinct objects each position keeps its own flag, as
      `BuildItemMatrix` states; the example below shows an object listed
      twice ending with the flag of its second position. */
  lemma SharedSelectedFlagsDistinct(ids: seq<int>, selectedIndex: int)
    requires forall i, j :: 0 <= i < j < |ids| ==> ids[i] != ids[j]
    ensures forall k :: 0 <= k < |ids| ==> SharedSelectedFlags(ids, selectedIndex)[ids[k]] == (k == selectedIndex)
  {
    assert forall k :: 0 <= k < |ids| ==> LastPosition(ids, k);
  }

  lemma SharedSelectedFlagsExample()
    ensures SharedSelectedFlags([7, 7], 0) == map[7 := false]
    ensures SharedSelectedFlags([7, 7], 1) == map[7 := true]
  {
  }

  /** How far a key moves the selection of the grid menu. */
  function Move(key: ConsoleKey, gridWidth: int): int {
    match key
    case RightArrow => 1
    case LeftArrow => -1
    case UpArrow => -gridWidth
    case DownArrow => gridWidth
    case _ => 0
  }

  function Clamp(x: int, lo: int, hi: int): int
    requires lo <= hi
  {
    if x < lo then lo else if x > hi then hi else x
  }

  /** One pass of the `Execute` loop as written, on 32-bit `SelectedIndex`
      arithmetic: Enter returns; any other key moves the index by its move and
      then clamps it, checking `SelectedIndex + 1 > Count` first and
      `SelectedIndex < 0` second. Whenever the exact moved index stays below
      `Int32.Max` it agrees with `MenuStep`; at `Int32.Max` itself the check's
      `+ 1` wraps. */
  function MenuStepAsWritten(index: int, key: ConsoleKey, count: int, gridWidth: int): (r: Step)
    requires Int32.InRange(index) && Int32.InRange(gridWidth) && 0 <= count < Int32.Max
    ensures Int32.InRange(r.index)
    ensures r.Return? <==> key == Enter
    ensures r.Return? ==> r.index == index
    ensures Int32.InRange(index + Move(key, gridWidth)) && index + Move(key, gridWidth) < Int32.Max ==>
      r == MenuStep(index, key, count, gridWidth)
  {
    if key == Enter then Return(index)
    else
      var moved := Int32.Wrap(index + Move(key, gridWidth));
      var fixedHigh := if Int32.Wrap(moved + 1) > count then count - 1 else moved;
      Continue(if fixedHigh < 0 then 0 else fixedHigh)
  }

  /** Three inputs on which the written code disagrees with the exact one.
      The out-of-range index `Int32.MaxValue` survives an unrecognised key. A
      grid width of `Int32.MaxValue` makes Down wrap to the first item instead
      of the last. With a grid width of `Int32.MaxValue - 1`, Down from the
      in-range index 1 reaches `Int32.MaxValue` without wrapping, but the
      `+ 1` of the bounds check wraps, so the index leaves the list. */
  lemma MenuStepAsWrittenOverflows()
    ensures MenuStepAsWritten(Int32.Max, Other(65), 3, 3) == Continue(Int32.Max)
    ensures MenuStep(Int32.Max, Other(65), 3, 3) == Continue(2)
    ensures MenuStepAsWritten(1, DownArrow, 3, Int32.Max) == Continue(0)
    ensures MenuStep(1, DownArrow, 3, Int32.Max) == Continue(2)
    ensures MenuStepAsWritten(1, DownArrow, 3, Int32.Max - 1) == Continue(Int32.Max)
    ensures MenuStep(1, DownArrow, 3, Int32.Max - 1) == Continue(2)
  {
  }

  /** One pass of the `Execute` loop with exact arithmetic. Enter returns and
      leaves the index alone. Any other key moves the index and clamps it to
      the list (it saturates rather than wraps), so it ends inside the list
      whatever it was before. */
  function MenuStep(index: int, key: ConsoleKey, count: int, gridWidth: int): (r: Step)
    ensures r.Return? <==> key == Enter
    ensures r.Return? ==> r.index == index
    ensures r.Continue? && count >= 1 ==> 0 <= r.index < count
    ensures r.Continue? && count >= 1 ==> r.index == Clamp(index + Move(key, gridWidth), 0, count - 1)
  {
    if key == Enter then Return(index)
    else
      var moved := index + Move(key, gridWidth);
      var fixedHigh := if moved + 1 > count then count - 1 else moved;
      Continue(if fixedHigh < 0 then 0 else fixedHigh)
  }

  /** Up from the first row lands on the first item, Down from the last row on
      the last item; Right then Left restores any item but the last. */
  lemma MenuStepSaturates(index: int, count: int, gridWidth: int)
    requires 0 <= index < count && gridWidth >= 1
    ensures index < gridWidth ==> MenuStep(index, UpArrow, count, gridWidth) == Continue(0)
    ensures index + gridWidth >= count ==> MenuStep(index, DownArrow, count, gridWidth) == Continue(count - 1)
    ensures index < count - 1 ==>
      MenuStep(MenuStep(index, RightArrow, count, gridWidth).index, LeftArrow, count, gridWidth).index == index
  {
  }

  /** The `Execute` loop over a sequence of key presses: the index when Enter
      is pressed, or after the last key. It is inside the list when the start
      is, and also when the first key is anything but Enter. */
  function MenuLoop(index: int, keys: seq<ConsoleKey>, count: int, gridWidth: int): (r: int)
    ensures count >= 1 && (0 <= index < count || (|keys| > 0 && keys[0] != Enter)) ==> 0 <= r < count
    decreases |keys|
  {
    if |keys| == 0 then index
    else
      match MenuStep(index, keys[0], count, gridWidth)
      case Return(i) => i
      case Continue(i) => MenuLoop(i, keys[1..], count, gridWidth)
  }

  /** `s` padded on the right with spaces to `width` characters (`PadRight`). */
  function PadRight(s: string, width: int): string
    requires |s| <= width
  {
    s + seq(width - |s|, _ => ' ')
  }

  /** The text `PlaceItems` writes into a cell: the item's text cut or padded
      to exactly `itemWidth` characters. A negative width makes `Substring`
      throw. */
  function CellText(text: string, itemWidth: int): (r: Result<string>)
    ensures r.Ok? <==> itemWidth >= 0
    ensures r.Throws? ==> r.exception == ArgumentOutOfRange
    ensures r.Ok? ==> |r.value| == itemWidth
    ensures r.Ok? ==> forall i :: 0 <= i < itemWidth ==> r.value[i] == if i < |text| then text[i] else ' '
  {
    if |text| > itemWidth then
      if itemWidth < 0 then Throws(ArgumentOutOfRange) else Ok(text[..itemWidth])
    else Ok(PadRight(text, itemWidth))
  }
}

=== FILE: results.dfy ===
/** Outcomes of the modelled operations.

    The modelled code reports failure by throwing runtime exceptions; a model
    returns them as values instead, so that every input has a defined outcome. */
module Results {

  /** The runtime exceptions the modelled code can raise on non-null input. */
  datatype Exception =
    | ArgumentOutOfRange   // Substring, PadRight or a list indexer given a bad index or length
    | IndexOutOfRange      // an array or string indexer given a bad index

  /** Either the value an operation returns or the exception it throws. */
  datatype Result<+T> = Ok(value: T) | Throws(exception: Exception)

  /** A reference that may be null. */
  datatype Option<+T> = None | Some(value: T)
}

=== FILE: selector.dfy ===
/** The logic of the select-list widget in `Selector.cs`: the key transition of
    `ConsoleSelectList.Execute`, `FindCenter`, the `BorderCharList` style table
    and `ConsoleListItem.CompareTo`. Rendering is not modelled. */
module Selector {
  import Int32

  /** The keys `Execute` distinguishes; `Other` is any other key. */
  datatype ConsoleKey = UpArrow | DownArrow | LeftArrow | RightArrow | Enter | Other(code: int)

  /** What one key press does: keep reading keys with a new index, or return. */
  datatype Step = Continue(index: int) | Return(index: int)

  /** A list entry; only the displayed text and the selection flag matter here. */
  datatype ListItem = ListItem(text: string, selected: bool)

  /** How far a key moves the selection of a select list. */
  function Delta(key: ConsoleKey): int {
    match key
    case UpArrow => -1
    case LeftArrow => -1
    case DownArrow => 1
    case RightArrow => 1
    case _ => 0
  }

  /** One pass of the `Execute` loop as written, on 32-bit `SelectedIndex`
      arithmetic: Enter returns; any other key moves the index by its delta and
      then wraps it back into range, checking `SelectedIndex + 1 > Count`
      first and `SelectedIndex < 0` second. From an index inside the list it
      agrees with `SelectStep`. A list never holds `Int32.MaxValue` items (the
      runtime's maximum array length is below it). */
  function SelectStepAsWritten(index: int, key: ConsoleKey, count: int): (r: Step)
    requires Int32.InRange(index) && 0 <= count < Int32.Max
    ensures Int32.InRange(r.index)
    ensures r.Return? <==> key == Enter
    ensures r.Return? ==> r.index == index
    ensures 0 <= index < count ==> r == SelectStep(index, key, count)
  {
    if key == Enter then Return(index)
    else
      var moved := Int32.Wrap(index + Delta(key));
      var fixedHigh := if Int32.Wrap(moved + 1) > count then 0 else moved;
      Continue(if fixedHigh < 0 then count - 1 else fixedHigh)
  }

  /** The out-of-range index `Int32.MaxValue` survives an unrecognised key:
      `SelectedIndex + 1` wraps to a negative number, so neither range check fires. */
  lemma SelectStepAsWrittenKeepsMaxValue()
    ensures SelectStepAsWritten(Int32.Max, Other(65), 3) == Continue(Int32.Max)
    ensures SelectStep(Int32.Max, Other(65), 3) == Continue(0)
  {
  }

  /** One pass of the `Execute` loop with the range checks evaluated without
      overflow. Enter returns and leaves the index alone. Any other key leaves
      an index inside the list, whatever the index was before; from an index
      inside the list the move is one step around the list, modulo `count`. */
  function SelectStep(index: int, key: ConsoleKey, count: int): (r: Step)
    ensures r.Return? <==> key == Enter
    ensures r.Return? ==> r.index == index
    ensures r.Continue? && count >= 1 ==> 0 <= r.index < count
    ensures r.Continue? && 0 <= index < count ==> r.index == (index + Delta(key)) % count
  {
    if key == Enter then Return(index)
    else
      var moved := index + Delta(key);
      var fixedHigh := if moved + 1 > count then 0 else moved;
      var next := if fixedHigh < 0 then count - 1 else fixedHigh;
      if 0 <= index < count then WrapOneStep(moved, count); Continue(next)
      else Continue(next)
  }

  /** One step past either end of `0..count - 1` is the other end modulo `count`. */
  lemma WrapOneStep(moved: int, count: int)
    requires count >= 1 && -1 <= moved <= count
    ensures moved == count ==> moved % count == 0
    ensures moved == -1 ==> moved % count == count - 1
    ensures 0 <= moved < count ==> moved % count == moved
  {
  }

  /** Stepping forward and then back (Down then Up, or Right then Left)
      restores an index inside the list, and so does back then forward. */
  lemma SelectStepRoundTrip(index: int, count: int, forward: ConsoleKey, back: ConsoleKey)
    requires 0 <= index < count
    requires Delta(forward) == 1 && Delta(back) == -1
    ensures SelectStep(SelectStep(index, forward, count).index, back, count).index == index
    ensures SelectStep(SelectStep(index, back, count).index, forward, count).index == index
  {
  }

  /** The `Execute` loop over a sequence of key presses: the index when Enter
      is pressed, or after the last key. The result is inside the list when the
      start is, and also when the first key is anything but Enter. */
  function SelectLoop(index: int, keys: seq<ConsoleKey>, count: int): (r: int)
    ensures count >= 1 && (0 <= index < count || (|keys| > 0 && keys[0] != Enter)) ==> 0 <= r < count
    ensures (forall k :: 0 <= k < |keys| ==> Delta(keys[k]) == 0 && keys[k] != Enter) && 0 <= index < count ==> r == index
    decreases |keys|
  {
    if |keys| == 0 then index
    else
      match SelectStep(index, keys[0], count)
      case Return(i) => i
      case Continue(i) => SelectLoop(i, keys[1..], count)
  }

  /** ceil(x / 2): the least integer whose double reaches `x`. */
  function CeilHalf(x: int): (r: int)
    ensures x <= 2 * r <= x + 1
  {
    (x + 1) / 2
  }

  /** `FindCenter(text)`: the column at which to write `text` so that it is
      centred in `width` columns, `ceil(width / 2) - ceil(|text| / 2)`. The
      left margin and the right margin differ by at most one column. */
  function FindCenter(width: int, text: string): (r: int)
    ensures -1 <= (width - |text| - r) - r <= 1
    ensures r == CeilHalf(width) - CeilHalf(|text|)
  {
    CeilHalf(width) - CeilHalf(|text|)
  }

  /** `ConsoleBorderStyle`; `Unnamed` stands for any other value of the enum. */
  datatype ConsoleBorderStyle = None | SingleLine | SingleDouble | DoubleLine | BlockLine | Unnamed

  /** `BorderCharList`: the 17 characters a border is drawn with. */
  datatype BorderChars = BorderChars(
    upperLeft: char, upperRight: char, lowerLeft: char, lowerRight: char,
    outerVertical: char, outerHorizontal: char, innerVertical: char, innerHorizontal: char,
    crossBreakUp: char, crossBreakRight: char, crossBreakLeft: char, crossBreakDown: char,
    crossSection: char,
    outerBreakRight: char, outerBreakLeft: char, outerBreakDown: char, outerBreakUp: char)
  {
    /** Every one of the 17 characters is `c`. */
    predicate IsUniform(c: char) {
      && upperLeft == c && upperRight == c && lowerLeft == c && lowerRight == c
      && outerVertical == c && outerHorizontal == c && innerVertical == c && innerHorizontal == c
      && crossBreakUp == c && crossBreakRight == c && crossBreakLeft == c && crossBreakDown == c
      && crossSection == c
      && outerBreakRight == c && outerBreakLeft == c && outerBreakDown == c && outerBreakUp == c
    }

    /** The four corners are four different characters. */
    predicate CornersDistinct() {
      && upperLeft != upperRight && upperLeft != lowerLeft && upperLeft != lowerRight
      && upperRight != lowerLeft && upperRight != lowerRight && lowerLeft != lowerRight
    }
  }

  function Uniform(c: char): BorderChars {
    BorderChars(c, c, c, c, c, c, c, c, c, c, c, c, c, c, c, c, c)
  }

  /** The `BorderCharList(style)` constructor. `None` draws with spaces only;
      `BlockLine` and every unnamed style draw with the full block only; the
      three line styles draw with four different corners. */
  function BorderCharList(style: ConsoleBorderStyle): (r: BorderChars)
    ensures r.IsUniform(' ') <==> style == None
    ensures r.IsUniform('█') <==> style == BlockLine || style == Unnamed
    ensures style in {SingleLine, SingleDouble, DoubleLine} ==> r.CornersDistinct()
  {
    match style
    case BlockLine => Uniform('█')
    case DoubleLine => BorderChars(
      upperLeft := '╔', upperRight := '╗', lowerLeft := '╚', lowerRight := '╝',
      outerVertical := '║', outerHorizontal := '═', innerVertical := '║', innerHorizontal := '═',
      crossBreakUp := '╩', crossBreakRight := '╠', crossBreakLeft := '╣', crossBreakDown := '╦',
      crossSection := '╬',
      outerBreakRight := '╠', outerBreakLeft := '╣', outerBreakDown := '╦', outerBreakUp := '╩')
    case SingleDouble => BorderChars(
      upperLeft := '╔', upperRight := '╗', lowerLeft := '╚', lowerRight := '╝',
      outerVertical := '║', outerHorizontal := '═', innerVertical := '│', innerHorizontal := '─',
      crossBreakUp := '┴', crossBreakRight := '├', crossBreakLeft := '┤', crossBreakDown := '┬',
      crossSection := '┼',
      outerBreakRight := '╟', outerBreakLeft := '╢', outerBreakDown := '╤', outerBreakUp := '╧')
    case SingleLine => BorderChars(
      upperLeft := '┌', upperRight := '┐', lowerLeft := '└', lowerRight := '┘',
      outerVertical := '│', outerHorizontal := '─', innerVertical := '│', innerHorizontal := '─',
      crossBreakUp := '┴', crossBreakRight := '├', crossBreakLeft := '┤', crossBreakDown := '┬',
      crossSection := '┼',
      outerBreakRight := '├', outerBreakLeft := '┤', outerBreakDown := '┬', outerBreakUp := '┴')
    case None => Uniform(' ')
    case Unnamed => Uniform('█')
  }

  /** The `BlockLine` case and the default case build the same list. */
  lemma BlockLineIsDefault()
    ensures BorderCharList(BlockLine) == BorderCharList(Unnamed)
  {
  }

  /** The sign of `n`. */
  function Sign(n: int): int {
    if n < 0 then -1 else if n > 0 then 1 else 0
  }

  /** Ordinal order on characters (Unicode scalar values): `a` is a proper
      prefix of `b`, or the first position where they differ holds a smaller
      character in `a`. */
  predicate OrdinalLess(a: string, b: string) {
    a < b || exists k :: 0 <= k < |a| && k < |b| && a[..k] == b[..k] && a[k] < b[k]
  }

  /** The sign of `String.Compare(a, b, StringComparison.Ordinal)`; zero exactly
      for equal texts. */
  function CompareOrdinal(a: string, b: string): (r: int)
    ensures -1 <= r <= 1
    ensures r == 0 <==> a == b
  {
    if |a| == 0 || |b| == 0 then Sign(|a| - |b|)
    else if a[0] != b[0] then Sign(a[0] as int - b[0] as int)
    else
      assert a == [a[0]] + a[1..] && b == [b[0]] + b[1..];
      CompareOrdinal(a[1..], b[1..])
  }

  /** `ConsoleListItem.CompareTo`: ordinal comparison of the items' texts. */
  function CompareTo(item: ListItem, other: ListItem): (r: int)
    ensures -1 <= r <= 1
    ensures r == 0 <==> item.text == other.text
  {
    CompareOrdinal(item.text, other.text)
  }

  /** Swapping the operands negates the comparison. */
  lemma {:induction false} CompareOrdinalAntisymmetric(a: string, b: string)
    ensures CompareOrdinal(b, a) == -CompareOrdinal(a, b)
    decreases |a|
  {
    if |a| > 0 && |b| > 0 && a[0] == b[0] {
      CompareOrdinalAntisymmetric(a[1..], b[1..]);
    }
  }

  /** A negative comparison means exactly that `a` comes first in ordinal order. */
  lemma {:induction false} CompareOrdinalLess(a: string, b: string)
    ensures CompareOrdinal(a, b) < 0 <==> OrdinalLess(a, b)
    decreases |a|
  {
    if |a| == 0 || |b| == 0 {
      if |a| > 0 {
        assert !(a < b);
      }
    } else if a[0] != b[0] {
      OrdinalLessHead(a, b);
    } else {
      CompareOrdinalLess(a[1..], b[1..]);
      OrdinalLessTail(a, b);
    }
  }

  /** Texts that differ in their first character are ordered by it. */
  lemma OrdinalLessHead(a: string, b: string)
    requires |a| > 0 && |b| > 0 && a[0] != b[0]
    ensures OrdinalLess(a, b) <==> a[0] < b[0]
  {
    assert a[..0] == b[..0];
    forall k | 0 < k <= |a| && k <= |b| ensures a[..k] != b[..k] {
      assert a[..k][0] != b[..k][0];
    }
  }

  /** Texts that agree in their first character are ordered by the rest. */
  lemma OrdinalLessTail(a: string, b: string)
    requires |a| > 0 && |b| > 0 && a[0] == b[0]
    ensures OrdinalLess(a, b) <==> OrdinalLess(a[1..], b[1..])
  {
    if OrdinalLess(a, b) {
      OrdinalLessDropsHead(a, b);
    }
    if OrdinalLess(a[1..], b[1..]) {
      OrdinalLessAddsHead(a, b);
    }
  }

  lemma OrdinalLessDropsHead(a: string, b: string)
    requires |a| > 0 && |b| > 0 && a[0] == b[0] && OrdinalLess(a, b)
    ensures OrdinalLess(a[1..], b[1..])
  {
    if a < b {
      assert a[1..] < b[1..];
    } else {
      var k :| 0 <= k < |a| && k < |b| && a[..k] == b[..k] && a[k] < b[k];
      assert k > 0;
      assert a[1..][..k - 1] == a[..k][1..];
      assert b[1..][..k - 1] == b[..k][1..];
      assert a[1..][k - 1] < b[1..][k - 1];
    }
  }

  lemma OrdinalLessAddsHead(a: string, b: string)
    requires |a| > 0 && |b| > 0 && a[0] == b[0] && OrdinalLess(a[1..], b[1..])
    ensures OrdinalLess(a, b)
  {
    if a[1..] < b[1..] {
      assert a == [a[0]] + a[1..] && b == [b[0]] + b[1..];
      assert a < b;
    } else {
      var k :| 0 <= k < |a[1..]| && k < |b[1..]| && a[1..][..k] == b[1..][..k] && a[1..][k] < b[1..][k];
      assert a[..k + 1] == [a[0]] + a[1..][..k];
      assert b[..k + 1] == [b[0]] + b[1..][..k];
      assert a[k + 1] < b[k + 1];
    }
  }

}

=== FILE: string_extensions.dfy ===
/** The self-contained string extension methods of `StringExtensions`:
    query-string removal, masking, boolean parsing, title casing, blank
    detection, digit extraction, reversal and the JSON sniff. */
module StringExtensions {
  import opened Results
  import opened Chars

  /** Index of the first `c` in `s`, or -1 (`String.IndexOf(char)`). */
  function IndexOf(s: string, c: char): (r: int)
    ensures -1 <= r < |s|
    ensures r == -1 <==> c !in s
    ensures r >= 0 ==> s[r] == c && c !in s[..r]
  {
    if |s| == 0 then -1
    else if s[0] == c then 0
    else
      var k := IndexOf(s[1..], c);
      assert s[1..][..k + 1] == s[1..k + 2] by { if k >= 0 { } }
      if k < 0 then -1 else k + 1
  }

  /** The part of `value` before its first '?'. The result is a prefix of
      `value` with no '?' in it, and it stops only where `value` has a '?'. */
  function RemoveQueryString(value: string): (r: string)
    ensures r <= value
    ensures '?' !in r
    ensures |r| < |value| ==> value[|r|] == '?'
    ensures '?' !in value ==> r == value
  {
    var index := IndexOf(value, '?');
    if index < 0 then value else value[..index]
  }

  /** Removing the query string twice removes nothing more. */
  lemma RemoveQueryStringIdempotent(value: string)
    ensures RemoveQueryString(RemoveQueryString(value)) == RemoveQueryString(value)
  {
  }

  /** Which characters each masking format leaves visible. */
  datatype ObscuredTextFormat =
    | FirstLetterOnly
    | FirstAndLastLetterOnly
    | LastFourCharactersOnly
    | CompletelyObscured

  /** Whether `format` reveals position `i` of a text of length `n`. */
  predicate Reveals(format: ObscuredTextFormat, n: int, i: int) {
    match format
    case FirstLetterOnly => i == 0
    case FirstAndLastLetterOnly => i == 0 || i == n - 1
    case LastFourCharactersOnly => i >= n - 4
    case CompletelyObscured => false
  }

  /** `value` masked by `format`: same length, each character either kept
      (where the format reveals it) or replaced by '*'. */
  method Obscured(value: string, format: ObscuredTextFormat) returns (r: string)
    ensures |r| == |value|
    ensures forall i :: 0 <= i < |r| && Reveals(format, |value|, i) ==> r[i] == value[i]
    ensures forall i :: 0 <= i < |r| && !Reveals(format, |value|, i) ==> r[i] == '*'
  {
    r := [];
    var i := 0;
    while i < |value|
      invariant 0 <= i <= |value| && |r| == i
      invariant forall k :: 0 <= k < i && Reveals(format, |value|, k) ==> r[k] == value[k]
      invariant forall k :: 0 <= k < i && !Reveals(format, |value|, k) ==> r[k] == '*'
    {
      var c := match format
        case FirstAndLastLetterOnly => if i == 0 || i == |value| - 1 then value[i] else '*'
        case FirstLetterOnly => if i == 0 then value[i] else '*'
        case LastFourCharactersOnly => if i >= |value| - 4 then value[i] else '*'
        case CompletelyObscured => '*';
      r := r + [c];
      i := i + 1;
    }
  }

  /** `ToBoolean`: the text, ignoring case, is one of "y", "yes", "1", "true", "t". */
  function ToBoolean(text: string): (r: bool)
    ensures r ==> 1 <= |text| <= 4
    ensures r ==> IsLower(Lower(text)[0]) || text == "1"
  {
    var val := Lower(text);
    val == "y" || val == "yes" || val == "1" || val == "true" || val == "t"
  }

  /** Only the letters' case is ignored: texts equal up to case read the same. */
  lemma ToBooleanIgnoresCase(a: string, b: string)
    requires EqualsIgnoreCase(a, b)
    ensures ToBoolean(a) == ToBoolean(b)
  {
  }

  lemma ToBooleanExamples()
    ensures ToBoolean("TRUE") && ToBoolean("Yes") && ToBoolean("t") && ToBoolean("1")
    ensures !ToBoolean("no") && !ToBoolean("false") && !ToBoolean("0") && !ToBoolean("")
  {
    assert Lower("TRUE") == "true";
    assert Lower("Yes") == "yes";
  }

  /** A text is title cased when each character that starts a word (the first
      one, or one after white space) is not lower case and every other one is
      not upper case. */
  predicate IsTitleCased(s: string) {
    forall i :: 0 <= i < |s| ==> if StartsWord(s, i) then !IsLower(s[i]) else !IsUpper(s[i])
  }

  /** Position `i` of `s` begins a word: it is first, or follows white space. */
  predicate StartsWord(s: string, i: int)
    requires 0 <= i < |s|
  {
    i == 0 || IsWhiteSpace(s[i - 1])
  }

  /** The character `ToTitleCase` emits at position `i` of the lowered text. */
  function TitleChar(lowered: string, i: int): char
    requires 0 <= i < |lowered|
  {
    if StartsWord(lowered, i) then ToUpper(lowered[i]) else ToLower(lowered[i])
  }

  /** `ToTitleCase`: the text lowered, then the first character and every
      character after white space upper-cased. Indexing the first character of
      an empty text throws. The result is title cased and equals the text
      ignoring case. */
  function ToTitleCase(text: string): (r: Result<string>)
    ensures r.Ok? <==> |text| > 0
    ensures r.Throws? ==> r.exception == IndexOutOfRange
    ensures r.Ok? ==> |r.value| == |text| && IsTitleCased(r.value) && EqualsIgnoreCase(r.value, text)
  {
    if |text| == 0 then Throws(IndexOutOfRange)
    else
      var iterate := Lower(text);
      var output := seq(|iterate|, i requires 0 <= i < |iterate| => TitleChar(iterate, i));
      assert forall i :: 0 <= i < |text| ==> ToLower(output[i]) == ToLower(text[i]);
      assert forall i :: 0 <= i < |text| ==> StartsWord(output, i) == StartsWord(iterate, i);
      Ok(output)
  }

  /** A character that is not lower case survives lowering and re-upper-casing,
      and one that is not upper case survives lowering. */
  lemma CaseRoundTrip(c: char)
    ensures !IsLower(c) ==> ToUpper(ToLower(c)) == c
    ensures !IsUpper(c) ==> ToLower(c) == c
    ensures ToLower(ToLower(c)) == ToLower(c)
  {
  }

  /** A title-cased text is determined by its letters up to case: `ToTitleCase`
      yields the only title-cased text equal to the input ignoring case. */
  lemma TitleCaseUnique(text: string, t: string)
    requires |text| > 0 && |t| == |text|
    requires IsTitleCased(t) && EqualsIgnoreCase(t, text)
    ensures ToTitleCase(text) == Ok(t)
  {
    var r := ToTitleCase(text).value;
    var low := Lower(text);
    assert r == seq(|low|, i requires 0 <= i < |low| => TitleChar(low, i));
    forall i | 0 <= i < |t| ensures r[i] == t[i] {
      TitleCharAgrees(low, t, i);
    }
    assert |r| == |t|;
    assert r == t;
  }

  lemma TitleCharAgrees(low: string, t: string, i: int)
    requires |t| == |low| && 0 <= i < |t|
    requires IsTitleCased(t) && Lower(t) == low
    ensures TitleChar(low, i) == t[i]
  {
    assert ToLower(t[i]) == low[i];
    CaseRoundTrip(t[i]);
    if i > 0 {
      assert ToLower(t[i - 1]) == low[i - 1];
    }
  }

  /** Title casing a title-cased text changes nothing. */
  lemma TitleCaseIdempotent(text: string)
    requires |text| > 0
    ensures ToTitleCase(ToTitleCase(text).value) == ToTitleCase(text)
  {
    var r := ToTitleCase(text).value;
    TitleCaseUnique(r, r);
  }

  /** A digit stays as it is and the word after it is capitalised. */
  lemma TitleCaseDigitExample()
    ensures ToTitleCase("8 mile") == Ok("8 Mile")
  {
    assert Lower("8 mile") == "8 mile";
    assert Lower("8 Mile") == "8 mile";
    TitleCaseUnique("8 mile", "8 Mile");
  }

  /** Upper-case letters inside a word are lowered. */
  lemma TitleCaseShoutingExample()
    ensures ToTitleCase("skate KITCHEN") == Ok("Skate Kitchen")
  {
    assert Lower("skate KITCHEN") == "skate kitchen";
    assert Lower("Skate Kitchen") == "skate kitchen";
    TitleCaseUnique("skate KITCHEN", "Skate Kitchen");
  }

  /** A one-letter word is capitalised like any other. */
  lemma TitleCaseShortWordExample()
    ensures ToTitleCase("a dangerous idea") == Ok("A Dangerous Idea")
  {
    assert Lower("a dangerous idea") == "a dangerous idea";
    assert Lower("A Dangerous Idea") == "a dangerous idea";
    TitleCaseUnique("a dangerous idea", "A Dangerous Idea");
  }

  /** `IsNullOrWhiteSpace`: null, or nothing left after `Trim`. */
  function IsNullOrWhiteSpace(text: Option<string>): (r: bool)
    ensures r <==> text.None? || AllWhiteSpace(text.value)
  {
    TrimEmptyIffAllWhiteSpace(if text.Some? then text.value else "");
    text.None? || |Trim(text.value)| == 0
  }

  /** The ASCII digits of `text` (`Regex.Replace(text, "[^0-9]", "")`). */
  function StripAllButNumbers(text: string): (r: string)
    ensures |r| <= |text|
    ensures forall i :: 0 <= i < |r| ==> IsDigit(r[i])
    ensures forall c :: IsDigit(c) ==> multiset(r)[c] == multiset(text)[c]
  {
    if |text| == 0 then []
    else
      assert text == [text[0]] + text[1..];
      (if IsDigit(text[0]) then [text[0]] else []) + StripAllButNumbers(text[1..])
  }

  /** Order is kept: stripping distributes over concatenation. */
  lemma {:induction false} StripDistributes(a: string, b: string)
    ensures StripAllButNumbers(a + b) == StripAllButNumbers(a) + StripAllButNumbers(b)
  {
    if |a| > 0 {
      assert (a + b)[0] == a[0];
      assert (a + b)[1..] == a[1..] + b;
      StripDistributes(a[1..], b);
    } else {
      assert a + b == b;
    }
  }

  /** A text of digits only is left as it is. */
  lemma {:induction false} StripKeepsDigits(text: string)
    requires forall i :: 0 <= i < |text| ==> IsDigit(text[i])
    ensures StripAllButNumbers(text) == text
  {
    if |text| > 0 {
      StripKeepsDigits(text[1..]);
    }
  }

  /** Stripping twice strips nothing more. */
  lemma StripIdempotent(text: string)
    ensures StripAllButNumbers(StripAllButNumbers(text)) == StripAllButNumbers(text)
  {
    StripKeepsDigits(StripAllButNumbers(text));
  }

  /** `text` with its characters in the opposite order. */
  function Reverse(text: string): (r: string)
    ensures |r| == |text|
    ensures forall i :: 0 <= i < |r| ==> r[i] == text[|text| - 1 - i]
  {
    if |text| == 0 then [] else Reverse(text[1..]) + [text[0]]
  }

  /** Reversing twice gives the text back. */
  lemma ReverseInvolution(text: string)
    ensures Reverse(Reverse(text)) == text
  {
  }

  /** `DetectIsJson`: after `Trim`, the text is wrapped in braces or in brackets. */
  function DetectIsJson(text: string): (r: bool)
    ensures r ==> |Trim(text)| >= 2
  {
    var t := Trim(text);
    (StartsWith(t, "{") && EndsWith(t, "}")) || (StartsWith(t, "[") && EndsWith(t, "]"))
  }

  /** White space around a text does not change the verdict. */
  lemma DetectIsJsonIgnoresPadding(w: string, text: string, w': string)
    requires AllWhiteSpace(w) && AllWhiteSpace(w')
    ensures DetectIsJson(w + text + w') == DetectIsJson(text)
  {
    TrimIgnoresPadding(w, text, w');
  }
}

=== FILE: truncation.dfy ===
/** The truncating extensions of `StringExtensions`: `Limit` and the two
    `LimitWithEllipses` overloads. */
module Truncation {
  import opened Results

  /** The single-character ellipsis the truncations append. */
  const Ellipsis: char := '…'

  /** `String.TrimEnd(c)`: `s` without its trailing run of `c`. */
  function TrimEndChar(s: string, c: char): (r: string)
    ensures r <= s
    ensures forall i :: |r| <= i < |s| ==> s[i] == c
    ensures |r| > 0 ==> r[|r| - 1] != c
  {
    if |s| > 0 && s[|s| - 1] == c then TrimEndChar(s[..|s| - 1], c) else s
  }

  /** `String.LastIndexOf(c)`: the last position of `c` in `s`, or -1. */
  function LastIndexOf(s: string, c: char): (r: int)
    ensures -1 <= r < |s|
    ensures r >= 0 ==> s[r] == c
    ensures forall j :: r < j < |s| ==> s[j] != c
  {
    if |s| == 0 then -1
    else if s[|s| - 1] == c then |s| - 1
    else LastIndexOf(s[..|s| - 1], c)
  }

  /** `Limit`: `value` when it fits in `characterCount`, otherwise its first
      `characterCount` characters with trailing spaces removed. A negative
      count makes `Substring` throw. */
  function Limit(value: string, characterCount: int): (r: Result<string>)
    ensures r.Ok? <==> characterCount >= 0
    ensures r.Throws? ==> r.exception == ArgumentOutOfRange
    ensures r.Ok? ==> r.value <= value && |r.value| <= characterCount
    ensures |value| <= characterCount ==> r == Ok(value)
    ensures 0 <= characterCount < |value| ==>
      (forall i :: |r.value| <= i < characterCount ==> value[i] == ' ')
      && (|r.value| > 0 ==> r.value[|r.value| - 1] != ' ')
  {
    if |value| <= characterCount then Ok(value)
    else if characterCount < 0 then Throws(ArgumentOutOfRange)
    else Ok(TrimEndChar(value[..characterCount], ' '))
  }

  /** `LimitWithEllipses(value, characterCount)`. Counts below 5 fall back to
      `Limit`; otherwise a text longer than `characterCount - 3` is cut to
      `characterCount - 3` characters and the ellipsis appended, so the result
      never exceeds `characterCount` (it has `characterCount - 2` characters,
      even for a text of up to `characterCount` that would have fitted). */
  function LimitWithEllipses(value: string, characterCount: int): (r: Result<string>)
    ensures characterCount < 5 ==> r == Limit(value, characterCount)
    ensures r.Ok? <==> characterCount >= 0
    ensures r.Ok? ==> |r.value| <= characterCount
    ensures 5 <= characterCount && |value| <= characterCount - 3 ==> r == Ok(value)
    ensures 5 <= characterCount && |value| > characterCount - 3 ==>
      |r.value| == characterCount - 2
      && r.value[..characterCount - 3] == value[..characterCount - 3]
      && r.value[characterCount - 3] == Ellipsis
  {
    if characterCount < 5 then Limit(value, characterCount)
    else if |value| <= characterCount - 3 then Ok(value)
    else Ok(value[..characterCount - 3] + [Ellipsis])
  }

  /** Where the word-barrier overload may cut a text truncated to `count`: at a
      space that is past position 0, past `count - 10` and inside the first
      `count - 3` characters. */
  predicate IsWordCut(value: string, count: int, k: int) {
    0 < k && count - 10 < k < count - 3 && k < |value| && value[k] == ' '
  }

  /** `LimitWithEllipses(value, characterCount, breakOnWordBarrier)`. Without
      the word barrier this is the two-argument overload. With it, a text that
      must be cut is cut at the last space of its first `characterCount - 3`
      characters when that space is a permitted word cut, and at
      `characterCount - 3` otherwise; the ellipsis is appended either way. */
  function LimitWithEllipsesOnBarrier(value: string, characterCount: int, breakOnWordBarrier: bool): (r: Result<string>)
    ensures !breakOnWordBarrier ==> r == LimitWithEllipses(value, characterCount)
    ensures characterCount < 5 ==> r == Limit(value, characterCount)
    ensures r.Ok? <==> characterCount >= 0
    ensures r.Ok? ==> |r.value| <= characterCount
    ensures 5 <= characterCount && |value| <= characterCount - 3 ==> r == Ok(value)
    ensures breakOnWordBarrier && 5 <= characterCount && |value| > characterCount - 3 ==>
      var k := |r.value| - 1;
      0 <= k < |value| && r.value == value[..k] + [Ellipsis]
      && (IsWordCut(value, characterCount, k) || k == characterCount - 3)
      && (forall j :: k < j < characterCount - 3 ==> !IsWordCut(value, characterCount, j))
      && (k == characterCount - 3 ==> forall j :: 0 <= j < k ==> !IsWordCut(value, characterCount, j))
  {
    if !breakOnWordBarrier then LimitWithEllipses(value, characterCount)
    else if characterCount < 5 then Limit(value, characterCount)
    else if |value| <= characterCount - 3 then Ok(value)
    else
      var lastspace := LastIndexOf(value[..characterCount - 3], ' ');
      if lastspace > 0 && lastspace > characterCount - 10 then Ok(value[..lastspace] + [Ellipsis])
      else Ok(value[..characterCount - 3] + [Ellipsis])
  }

  lemma LimitExamples()
    ensures Limit("the movie title", 9) == Ok("the movie")
    ensures Limit("the movie title", 4) == Ok("the")
    ensures LimitWithEllipses("the movie title", 8) == Ok("the m…")
    ensures LimitWithEllipsesOnBarrier("the movie title", 13, true) == Ok("the movie…")
  {
    assert "the movie title"[..4] == "the ";
    assert TrimEndChar("the ", ' ') == "the";
    assert "the movie title"[..9] == "the movie";
    assert "the movie title"[..5] + [Ellipsis] == "the m…";
    assert "the movie title"[..10] == "the movie ";
    assert LastIndexOf("the movie ", ' ') == 9;
    assert "the movie title"[..9] + [Ellipsis] == "the movie…";
  }
}
